=== FILE: README.md ===
# OBS Studio system information and WHIP header handling, modelled in Dafny

This project models two pieces of OBS Studio.

The first is the Linux half of the capability report sent with a multitrack video
request (`UI/system-info-posix.cpp`). It covers:

- the white-space trim used on every value read from a file;
- the line loops that read the distribution name and version from `/etc/os-release`
  and the processor name from `/proc/cpuinfo`;
- the clean-up of the PCI domain:bus:slot:function text read from a DRM device link;
- the clean-up of the renderer tokens and the count of how many tokens each DRM card's
  PCI device and vendor names contain (a `uint16_t`);
- the sort of the cards by that count, and the GPU list built from the sorted cards;
- the GPU model name adjustment, with its `size_t` arithmetic;
- the "system" record: distribution fallbacks, the kernel version cut to 128
  characters, and the 64-bit and ARM tests on the machine name.

The second is the set of libcurl callbacks of the WHIP output
(`plugins/obs-webrtc/whip-output.h`): `trim_string`, the body callback and the header
callback that captures the `Location` header (section 10.2.2 of RFC 9110).

Modules:

- `Wrappers`: `Option` and `Result`.
- `CppString`: the `std::string`, `<algorithm>` and C library calls the code uses
  (`find`, `find_last_of`, `find_first_not_of`, `find_last_not_of`, erase/remove,
  `tolower`, substring search, `size_t` arithmetic modulo 2^64).
- `SystemInfoText`: `trim_ws`, `adjust_gpu_model`, the dbsf clean-up, the
  "key<sep>value" extraction and `atoi`.
- `SystemInfoFiles`: the os-release and cpuinfo loops. Each is a method with a `while`
  loop, proved against a function that folds the loop body over the lines.
- `SystemInfoGpu`: the token loop, the scoring loops and the sort, all on arrays, and
  the GPU list loop.
- `SystemInfoHost`: the kernel version, bits, arm, and the assembled "system" record.
- `WhipOutput`: `trim_string`, the header update, and a `CurlBuffer` class for the
  `std::string` the callbacks append to.

File contents, `uname`, the graphics API's driver version, renderer and memory sizes,
and the PCI names are parameters: a file is its sequence of lines, or `None` when it
cannot be opened.

A Dafny `char` stands for one byte of the C++ `char` data throughout. Every length and
count in the model is therefore a byte count, as in the source. This covers the 128 of
the kernel version cut, the 10 of the `Location` prefix and `size * nmemb` in the
libcurl callbacks. Only single-byte text is represented.

## Model

| member | source | states |
|---|---|---|
| CppString.SizeSub | UI/system-info-posix.cpp:342-343 | `size_t` subtraction: the plain difference when it is not negative, otherwise the difference plus 2^64 |
| CppString.SizeAdd | UI/system-info-posix.cpp:343 | `size_t` addition (`first + 1`): the plain sum when it fits, otherwise the sum minus 2^64, so npos + 1 is 0 |
| CppString.SizeMul | plugins/obs-webrtc/whip-output.h:98 | `size * nmemb` (also `* 1024` at UI/system-info-posix.cpp:391-392): the plain product when it fits in 64 bits; the wrap beyond that is in the body only |
| CppString.PosOrNPos | UI/system-info-posix.cpp:340-341 | the `size_t` a `find` returns: npos exactly when nothing was found, otherwise the found index |
| CppString.Find | UI/system-info-posix.cpp:340 | `find(c)` gives the first index holding `c`, or none when `c` does not occur |
| CppString.FindLastOf | UI/system-info-posix.cpp:341 | `find_last_of(c)` gives the last index holding `c`, or none when `c` does not occur |
| CppString.FindFirstNotOf | UI/system-info-posix.cpp:53 | the first index outside the set, with everything before it inside; none when all of the string is inside |
| CppString.FindLastNotOf | UI/system-info-posix.cpp:58 | the last index outside the set, with everything after it inside; none when all of the string is inside |
| CppString.Contains | UI/system-info-posix.cpp:476-477 | `find(token) != npos` (and `strstr`) holds exactly when the token occurs at some position of the name |
| CppString.RemoveChar | UI/system-info-posix.cpp:215 | the erase/remove idiom leaves no `c`, never lengthens the string, and changes nothing when `c` is absent |
| CppString.RemoveCharCounts | UI/system-info-posix.cpp:215 | erase/remove keeps every other character exactly as many times as it occurred, and drops every `c` |
| CppString.StartsWith | UI/system-info-posix.cpp:70 | `line.compare(0, n, key) == 0`: the first `n` characters of the line are exactly the key (a shorter line never matches) |
| CppString.Substr | UI/system-info-posix.cpp:343 | `substr(pos, count)` gives `count` characters from `pos`, clamped to the end of the string |
| CppString.LowerChar | UI/system-info-posix.cpp:411 | `::tolower` in the "C" locale: 'A'..'Z' become 'a'..'z' (32 higher), every other character is unchanged |
| CppString.ToLower | UI/system-info-posix.cpp:411 | `std::transform` with `::tolower` keeps the length and lowers each character in its place: capitals become the small letters, the rest is unchanged |
| SystemInfoText.TrimWs | UI/system-info-posix.cpp:46-61 | an all-white-space string is kept as it is; otherwise the result runs from the first to the last character outside " \f\n\r\t\v" |
| SystemInfoText.TrimWsIdempotent | UI/system-info-posix.cpp:50-61 | trimming twice gives the same as trimming once |
| SystemInfoText.TrimWsFixed | UI/system-info-posix.cpp:50-61 | a string that starts and ends outside white space is unchanged |
| SystemInfoText.TrimWsPadded | UI/system-info-posix.cpp:50-61 | white space before and after a core whose ends are not white space is exactly what is removed |
| SystemInfoText.TrimWsEnds | UI/system-info-posix.cpp:50-61 | unless the input is all white space, the result is not empty and neither starts nor ends with white space |
| SystemInfoText.TrimWsKeepsCharacters | UI/system-info-posix.cpp:50-61 | trimming introduces no character that was not in the input |
| SystemInfoText.AdjustGpuModel | UI/system-info-posix.cpp:331-346 | the adjusted model is always one contiguous piece of the original model; the case lemmas below say which piece |
| SystemInfoText.AdjustGpuModelBetween | UI/system-info-posix.cpp:331-346 | with a '[' before a ']' and text between them, the model becomes exactly the text between the first '[' and the last ']' |
| SystemInfoText.AdjustGpuModelAdjacent | UI/system-info-posix.cpp:331-346 | with "[]" and nothing between, `last - first` is 1 and the model is unchanged |
| SystemInfoText.AdjustGpuModelReversed | UI/system-info-posix.cpp:331-346 | with the last ']' before the first '[', `last - first` wraps around and the model becomes everything after the '[' |
| SystemInfoText.AdjustGpuModelCloseOnly | UI/system-info-posix.cpp:331-346 | with only ']', `first` is npos and the model becomes the text before the last ']' (unchanged when ']' comes first) |
| SystemInfoText.AdjustGpuModelOpenOnly | UI/system-info-posix.cpp:331-346 | with only '[', `last` is npos and the model becomes everything after the first '[' |
| SystemInfoText.AdjustGpuModelNoBrackets | UI/system-info-posix.cpp:331-346 | without brackets the model is unchanged |
| SystemInfoText.AdjustGpuModelExample | UI/system-info-posix.cpp:333-336 | "GP104GL [Quadro P4000]" becomes "Quadro P4000" |
| SystemInfoText.AdjustGpuModelEmptyBrackets | UI/system-info-posix.cpp:340-345 | "[]" stays "[]" |
| SystemInfoText.NormalizeDbsf | UI/system-info-posix.cpp:210-216 | the result has no '/' and does not start with '.'; it is the link with every '/' removed, minus a leading run of '.' |
| SystemInfoText.NormalizeDbsfRelativeLink | UI/system-info-posix.cpp:211-216 | any number of "../" followed by an address and a trailing '/' gives back exactly the address, when the address has no '/' and does not start with '.' |
| SystemInfoText.NormalizeDbsfExample | UI/system-info-posix.cpp:211-216 | "../../../0000:65:00.0/" becomes "0000:65:00.0" |
| SystemInfoText.ValueAfterAsWritten | UI/system-info-posix.cpp:71-72 | the extraction as written throws exactly when the line's first separator is its last character |
| SystemInfoText.SeparatorLastThrows | UI/system-info-posix.cpp:71-72 | when the first separator is the last character of the line, `line.at(pos + 1)` throws `std::out_of_range` |
| SystemInfoText.EmptyNameThrows | UI/system-info-posix.cpp:70-72 | the os-release line "NAME=" throws; the corrected extraction gives no value |
| SystemInfoText.ValueAfter | UI/system-info-posix.cpp:71-73 | a value is exactly the non-empty text after the first separator, not starting with NUL; there is none when the separator is missing, last, or followed by NUL; it agrees with the code as written wherever that does not throw |
| SystemInfoText.ValueAfterOf | UI/system-info-posix.cpp:71-73 | a name without the separator, the separator, and a value not starting with NUL gives exactly that value |
| SystemInfoText.Atoi | UI/system-info-posix.cpp:132 | `atoi`: leading white space skipped, an optional sign, then the leading decimal digits; no digits read as 0 |
| SystemInfoText.AtoiZero | UI/system-info-posix.cpp:132 | `atoi` gives 0 exactly when the digits it reads after white space and sign are all '0', or there are none |
| SystemInfoText.AtoiExamples | UI/system-info-posix.cpp:132-133 | " 0" reads as 0, " 1" as 1, and " x" as 0 |
| SystemInfoFiles.OsReleaseValue | UI/system-info-posix.cpp:70-79 | a line gives a value exactly when it starts with the key and has a value after its first '='; the value holds no '"' and is its own trim |
| SystemInfoFiles.OsReleaseValueOf | UI/system-info-posix.cpp:70-79 | `key=` followed by a value `u` (quoted or not, with white space around it inside the quotes) gives exactly `u`: the quotes are removed first, then the white space is trimmed |
| SystemInfoFiles.UnquotedPadding | UI/system-info-posix.cpp:76 | the erase/remove of '"' turns `"  u  "` into `  u  `, keeping the order of everything else |
| SystemInfoFiles.OsReleaseValueExample | UI/system-info-posix.cpp:70-79 | `NAME=" Arch "` gives "Arch" |
| SystemInfoFiles.DistroStep | UI/system-info-posix.cpp:70-93 | one pass of the loop body: a NAME line with a value sets the name and skips the VERSION_ID test, otherwise a VERSION_ID line with a value sets the version |
| SystemInfoFiles.DistroFold | UI/system-info-posix.cpp:69-95 | the name and version after the loop has read the given lines in order |
| SystemInfoFiles.DistributionInfo | UI/system-info-posix.cpp:63-103 | a missing file gives false with both values unchanged; otherwise true with the name and version given by the line-by-line fold |
| SystemInfoFiles.VersionLineIsNotNameLine | UI/system-info-posix.cpp:70-93 | a VERSION_ID line never starts with NAME, so the `continue` after a NAME line never skips a version |
| SystemInfoFiles.DistroNameIsLast | UI/system-info-posix.cpp:69-80 | the name is the value of the last NAME line that gives one |
| SystemInfoFiles.DistroNameKept | UI/system-info-posix.cpp:63-103 | without a NAME line that gives a value, the caller's name is kept |
| SystemInfoFiles.DistroVersionIsLast | UI/system-info-posix.cpp:69-93 | the version is the value of the last VERSION_ID line that gives one |
| SystemInfoFiles.DistroUnquoted | UI/system-info-posix.cpp:75-76 | a name or version taken from the file never holds '"' |
| SystemInfoFiles.ModelNameValue | UI/system-info-posix.cpp:119-124 | a line gives a processor name exactly when it starts with "model name" and has a value after its first ':'; the name is its own trim |
| SystemInfoFiles.ModelNameValueOf | UI/system-info-posix.cpp:119-124 | "model name", any text without ':', then ':' and a name `u` with white space around it gives exactly `u` |
| SystemInfoFiles.ModelNameValueExample | UI/system-info-posix.cpp:119-124 | "model name\t: AMD Ryzen 7 5800X" gives "AMD Ryzen 7 5800X" |
| SystemInfoFiles.IsPhysicalIdZero | UI/system-info-posix.cpp:129-133 | a "physical id" line with a value after its first ':' that `atoi` reads as 0 |
| SystemInfoFiles.CpuScan | UI/system-info-posix.cpp:118-137 | the loop over the lines: a "model name" line sets the name, and a "physical id" line reading 0 once a name is found ends the loop |
| SystemInfoFiles.CpuName | UI/system-info-posix.cpp:105-141 | always true; "Unavailable" for a missing file, otherwise the name the line scan ends with |
| SystemInfoFiles.CpuScanNameSource | UI/system-info-posix.cpp:115-137 | the scan ends with the name it started from or with the value of one of the "model name" lines |
| SystemInfoFiles.CpuScanNoModelName | UI/system-info-posix.cpp:115-124 | without a "model name" line the name is unchanged |
| SystemInfoFiles.CpuNameSource | UI/system-info-posix.cpp:105-141 | the reported name is "Unavailable" or the trimmed value of some "model name" line of the file |
| SystemInfoFiles.CpuScanStopsAtPhysicalIdZero | UI/system-info-posix.cpp:129-135 | once a name has been found, a "physical id" line reading 0 ends the scan: later lines change nothing |
| SystemInfoGpu.RemoveEach | UI/system-info-posix.cpp:406-408 | erasing each character in turn leaves none of them and adds no character; a token holding none of them is unchanged |
| SystemInfoGpu.RemoveEachCounts | UI/system-info-posix.cpp:406-408 | every character that is not erased is kept exactly as many times as it occurred |
| SystemInfoGpu.RemoveEachAppend | UI/system-info-posix.cpp:407-409 | removing the extra characters works piece by piece, so what is left keeps its order |
| SystemInfoGpu.CleanToken | UI/system-info-posix.cpp:406-411 | a cleaned token is no longer than before, has no upper-case letter and holds none of ",()[]{}"; a token without those characters is just lowered |
| SystemInfoGpu.CleanTokenKeeps | UI/system-info-posix.cpp:406-411 | every character of the token outside ",()[]{}" survives, lowered, and every character of the cleaned token is such a survivor |
| SystemInfoGpu.CleanTokenExample | UI/system-info-posix.cpp:406-411 | "NVIDIA" becomes "nvidia" |
| SystemInfoGpu.CleanTokens | UI/system-info-posix.cpp:404-413 | every token in the array is replaced, in place, by its cleaned form |
| SystemInfoGpu.StripExtraChars | UI/system-info-posix.cpp:407-409 | the inner loop erases each of ",()[]{}" in turn, giving exactly the token with all of them removed |
| SystemInfoGpu.TokensFoundIn | UI/system-info-posix.cpp:467-487 | the number of tokens that occur in a name, a repeated token counted each time; never more than the number of tokens |
| SystemInfoGpu.TokensFoundInCountsPositions | UI/system-info-posix.cpp:467-487 | the count of found tokens is the number of token positions whose token occurs in the name |
| SystemInfoGpu.EmptyTokenAlwaysFound | UI/system-info-posix.cpp:476-479 | an empty token is found in every name |
| SystemInfoGpu.MatchCount | UI/system-info-posix.cpp:465-488 | a card's `match_count`: tokens found in its lower-cased device name plus tokens found in its lower-cased vendor name, modulo 2^16 |
| SystemInfoGpu.MatchCountBound | UI/system-info-posix.cpp:465-488 | with fewer than 32768 tokens, the `uint16_t` count does not wrap and is at most twice the number of tokens |
| SystemInfoGpu.CountMatches | UI/system-info-posix.cpp:467-487 | the count is the number of tokens found in the device name plus those found in the vendor name, modulo 2^16 |
| SystemInfoGpu.ScoreCards | UI/system-info-posix.cpp:465-488 | every card gets its match count against the tokens, in place, and nothing else about any card changes |
| SystemInfoGpu.CompareMatchStrength | UI/system-info-posix.cpp:348-351 | `a` goes before `b` exactly when `a` matched strictly more tokens |
| SystemInfoGpu.CompareMatchStrengthIsStrictWeakOrder | UI/system-info-posix.cpp:348-351 | the comparison is irreflexive and transitive, and so is incomparability, as `std::sort` requires |
| SystemInfoGpu.StrongestFrom | UI/system-info-posix.cpp:495 | finds a card in the suffix that no card in that suffix beats |
| SystemInfoGpu.SortByMatchStrength | UI/system-info-posix.cpp:495 | the cards end up in order of non-increasing match count, as a rearrangement of the same cards |
| SystemInfoGpu.GpuFor | UI/system-info-posix.cpp:507-533 | the entry for the card at a given place in the sorted list: ids and adjusted model from the card; the graphics API's driver version and memory at place 0, "Unknown" and the card's own totals elsewhere |
| SystemInfoGpu.BuildGpuList | UI/system-info-posix.cpp:506-535 | one entry per card, in order, with the card's ids and adjusted model; the first takes the graphics API's driver version and memory, the others "Unknown" and their own memory totals |
| SystemInfoGpu.KibToBytes | UI/system-info-posix.cpp:391-392 | a KiB count times 1024 as a `uint64_t`: the exact product whenever that fits |
| SystemInfoGpu.SystemGpuData | UI/system-info-posix.cpp:391-535 | the cards come out sorted and as a rearrangement of the scored cards; the list has one entry per sorted card, each entry exactly the one for that card and place, the first carrying the graphics API's data converted to bytes |
| SystemInfoHost.FullKernelVersion | UI/system-info-posix.cpp:602-606 | sysname, release and version joined by single spaces: it starts with sysname, a space follows, then release, a space, and version to the end |
| SystemInfoHost.KernelVersionExample | UI/system-info-posix.cpp:595-610 | "Linux", "6.8.0-45-generic" and "#45-Ubuntu SMP" give "Linux 6.8.0-45-generic #45-Ubuntu SMP" |
| SystemInfoHost.KernelVersion | UI/system-info-posix.cpp:602-610 | the version string is a prefix of sysname, release and version joined by spaces: all of it when at most 128 characters, exactly 128 otherwise |
| SystemInfoHost.Bits | UI/system-info-posix.cpp:585-588 | 64 exactly when the machine name contains "64", 32 exactly when it does not |
| SystemInfoHost.IsArm | UI/system-info-posix.cpp:590-593 | ARM exactly when the machine name contains "aarch" |
| SystemInfoHost.MachineExamples | UI/system-info-posix.cpp:585-593 | "x86_64" is 64-bit and not ARM, "aarch64" is 64-bit ARM, "i686" is 32-bit and not ARM |
| SystemInfoHost.Armv7IsNotArm | UI/system-info-posix.cpp:585-593 | "armv7l" counts as neither 64-bit nor ARM |
| SystemInfoHost.SystemInfo | UI/system-info-posix.cpp:577-614 | the fallback name and "unknown" release when os-release is missing; the cpuinfo result; the cut kernel version with bits and arm when `uname` works; when it fails, "unknown" as version with bits and arm left as they were |
| WhipOutput.TrimString | plugins/obs-webrtc/whip-output.h:85-91 | an all-white-space string (" \n\r\t" only) becomes empty; otherwise the result runs from the first to the last character outside that set |
| WhipOutput.TrimStringFixed | plugins/obs-webrtc/whip-output.h:85-91 | a string that starts and ends outside the set is unchanged |
| WhipOutput.TrimStringPadded | plugins/obs-webrtc/whip-output.h:85-91 | white space before and after a core whose ends are outside the set is exactly what is removed |
| WhipOutput.TrimStringEnds | plugins/obs-webrtc/whip-output.h:85-91 | unless the input is all white space, the result is not empty and neither starts nor ends with ' ', '\n', '\r' or '\t' |
| WhipOutput.TrimStringIdempotent | plugins/obs-webrtc/whip-output.h:85-91 | trimming twice gives the same as trimming once |
| WhipOutput.TrimStringKeepsFormFeed | plugins/obs-webrtc/whip-output.h:88-89 | form feed and vertical tab are not trimmed |
| WhipOutput.IsLocationHeader | plugins/obs-webrtc/whip-output.h:116 | `astrcmpi_n(data, "location: ", 10) == 0`: the first 10 characters, lowered, are exactly "location: " |
| WhipOutput.LocationUpdate | plugins/obs-webrtc/whip-output.h:113-120 | a header line shorter than 10 bytes, or one without the "location: " prefix, leaves the buffer unchanged |
| WhipOutput.LocationUpdateAppends | plugins/obs-webrtc/whip-output.h:116-120 | a `Location` line appends its value to the buffer: an empty or trimmed buffer becomes the old buffer followed by the value, the line's trailing white space dropped |
| WhipOutput.LocationUpdateTwice | plugins/obs-webrtc/whip-output.h:116-120 | two `Location` lines leave both values, the first followed by the second |
| WhipOutput.LocationUpdateTrimmed | plugins/obs-webrtc/whip-output.h:116-120 | after a `Location` line the buffer is already trimmed |
| WhipOutput.LocationUpdateExample | plugins/obs-webrtc/whip-output.h:116-120 | "LOCATION: /whip/abc123\r\n" into an empty buffer leaves "/whip/abc123": the prefix is matched without regard to case, and the line end is trimmed |
| WhipOutput.NoSpaceIsNotLocation | plugins/obs-webrtc/whip-output.h:116 | "Location:/x", without the space after the colon, is not taken |
| WhipOutput.CurlBuffer.WriteFunction | plugins/obs-webrtc/whip-output.h:93-102 | appends exactly `size * nmemb` bytes to the buffer and reports that many as handled |
| WhipOutput.CurlBuffer.HeaderFunction | plugins/obs-webrtc/whip-output.h:104-123 | always reports `size * nmemb` as handled; the buffer becomes the header update of its old contents by that line |

## Left out

- File, `uname` and graphics-API I/O: these are parameters. A file is its lines, or
  `None` when it cannot be opened.
- `getline`: a line is what `getline` would yield; how bytes are split into lines is
  not modelled.
- Logging: every `blog` call, including the "ambiguous GPU association" warning after
  the sort.
- The splitting of the renderer string into tokens by the regular expression: the
  tokens are an input.
- The DRM card walk (`get_drm_card_info`, `readlink`, the sysfs reads) and the libpci
  lookups: the scanned cards, with their PCI device and vendor names, are an input.
  The clean-up of the link text itself is modelled (`SystemInfoText.NormalizeDbsf`).
- `get_cpu_freq`, the core counts, the memory totals and the emulation status: each is
  a single call outside the modelled logic.
- CppString.SizeMul: its ensures states the product only where it fits in 64 bits; the
  reduction modulo 2^64 beyond that is stated only by its body.
- SystemInfoText.Atoi: `int` overflow, which is undefined in C, is not modelled.
- SystemInfoFiles.DistributionInfo: a NAME or VERSION_ID line whose first '=' is its
  last character (such as "NAME=") makes the source throw `std::out_of_range` out of the function. The model
  follows the evidently intended behaviour and skips the line (see "## Findings").
- SystemInfoFiles.CpuName: the same holds for a "model name" or "physical id" line
  whose first ':' is its last character. The source throws; the model skips the line.
- SystemInfoHost.SystemInfo: it inherits both of these. The exception that would leave
  `system_info` is not modelled.
- SystemInfoFiles.CpuName: `physical_id` is kept only as the test "reads as 0". Its
  other values never change what the loop does.
- SystemInfoFiles.CpuName: `trim_ws` is applied through a cast of the
  `std::optional<std::string>` to `std::string &`. It is modelled as trimming the
  contained string, which is what the cast is meant to do.
- SystemInfoGpu.SortByMatchStrength: `std::sort` is modelled by a selection sort. The
  contract states only what `std::sort` promises (sorted, same cards). The order of
  cards with equal counts is not fixed.
- SystemInfoGpu.KibToBytes: the contract states the product only where it does not
  overflow 2^64.
- The rest of the WHIP output: its lifecycle, the HTTP exchange, the session and RTP
  handling. Only the libcurl callbacks and `trim_string` are modelled.
- WhipOutput.CurlBuffer.WriteFunction: libcurl passes a chunk of `size * nmemb` bytes.
  This is stated as a precondition, because the C code trusts it.
- WhipOutput.CurlBuffer.HeaderFunction: it carries the same precondition on the chunk
  size, for the same reason.

## Findings

| source | as written | input that shows it | evidently intended | confidence | as-written member | corrected member |
|---|---|---|---|---|---|---|
| UI/system-info-posix.cpp:71-72 (also 84-85, 120-121, 130-131) | `line.at(pos + 1)` is evaluated on a line that passed the key test and whose first separator is its last character, and `at` throws `std::out_of_range` for an index equal to the size | the os-release line "NAME=" (or "model name:" in /proc/cpuinfo) | a line with nothing after the separator has no value and is skipped | not executed | SystemInfoText.EmptyNameThrows | SystemInfoText.ValueAfter |

=== FILE: cpp_string.dfy ===
/**
 * The pieces of std::string, <algorithm> and the C library that the system-info and
 * WHIP code lean on, stated over `string` (a sequence of characters).
 * Positions that C++ reports as `size_t` with `npos` for "not found" are `Option<nat>`
 * here; `PosOrNPos` turns them back into the 64-bit value where the arithmetic matters.
 */
module CppString {
  import opened Wrappers

  /** 2^64: size_t arithmetic is taken modulo this. */
  const SizeModulus: nat := 0x1_0000_0000_0000_0000

  /** std::string::npos, the largest size_t value. */
  const NPos: nat := SizeModulus - 1

  type SizeT = n: nat | n < SizeModulus

  /** A string whose length fits below npos, as every std::string does (max_size() < npos). */
  type CppStr = s: string | |s| < NPos

  /** size_t subtraction, which wraps around modulo 2^64. */
  function SizeSub(a: SizeT, b: SizeT): (r: SizeT)
    ensures a >= b ==> r == a - b
    ensures a < b ==> r == SizeModulus + a - b
  {
    (a - b) % SizeModulus
  }

  /** size_t addition, which wraps around modulo 2^64. */
  function SizeAdd(a: SizeT, b: SizeT): (r: SizeT)
    ensures a + b < SizeModulus ==> r == a + b
    ensures a + b >= SizeModulus ==> r == a + b - SizeModulus
  {
    (a + b) % SizeModulus
  }

  /** size_t multiplication, which wraps around modulo 2^64. */
  function SizeMul(a: SizeT, b: SizeT): (r: SizeT)
    ensures a * b < SizeModulus ==> r == a * b
  {
    (a * b) % SizeModulus
  }

  /**
   * A position returned by one of the find members, as the size_t the C++ code sees.
   * A found position lies inside a string, hence below npos, so npos means "not found"
   * and nothing else.
   */
  function PosOrNPos(p: Option<nat>): (r: SizeT)
    requires p.Some? ==> p.value < NPos
    ensures r == NPos <==> p.None?
    ensures p.Some? ==> r == p.value
  {
    match p
    case Some(i) => i
    case None => NPos
  }

  /** `s.substr(pos, count)`: at most `count` characters from `pos` on (the count is clamped
      to what is left). The caller keeps `pos <= |s|`, beyond which substr throws. */
  function Substr(s: string, pos: nat, count: nat): (r: string)
    requires pos <= |s|
    ensures pos + count <= |s| ==> r == s[pos..pos + count]
    ensures pos + count > |s| ==> r == s[pos..]
  {
    if count <= |s| - pos then s[pos..pos + count] else s[pos..]
  }

  /** True when every character of `s` is one of `cs`. */
  ghost predicate AllIn(s: string, cs: set<char>)
  {
    forall k :: 0 <= k < |s| ==> s[k] in cs
  }

  /** `s.find(c)`: the first index holding `c`. */
  function Find(s: string, c: char): (r: Option<nat>)
    ensures match r
            case None => c !in s
            case Some(i) => i < |s| && s[i] == c && c !in s[..i]
  {
    if s == [] then None
    else if s[0] == c then Some(0)
    else
      match Find(s[1..], c)
      case None => None
      case Some(i) =>
        assert s[..i + 1] == [s[0]] + s[1..][..i];
        Some(i + 1)
  }

  /** The first occurrence pins down what `find` returns. */
  lemma FindIs(s: string, c: char, i: nat)
    requires i < |s| && s[i] == c && c !in s[..i]
    ensures Find(s, c) == Some(i)
  {
  }

  /** `s.find_last_of(c)` for a single character: the last index holding `c`. */
  function FindLastOf(s: string, c: char): (r: Option<nat>)
    ensures match r
            case None => c !in s
            case Some(i) => i < |s| && s[i] == c && c !in s[i + 1..]
  {
    if s == [] then None
    else if s[|s| - 1] == c then Some(|s| - 1)
    else
      var r := FindLastOf(s[..|s| - 1], c);
      assert s == s[..|s| - 1] + [s[|s| - 1]];
      r
  }

  /** The last occurrence pins down what `find_last_of` returns. */
  lemma FindLastOfIs(s: string, c: char, i: nat)
    requires i < |s| && s[i] == c && c !in s[i + 1..]
    ensures FindLastOf(s, c) == Some(i)
  {
  }

  /** `s.find_first_not_of(cs)`: the first index whose character is not in `cs`. */
  function FindFirstNotOf(s: string, cs: set<char>): (r: Option<nat>)
    ensures match r
            case None => AllIn(s, cs)
            case Some(i) => i < |s| && s[i] !in cs && AllIn(s[..i], cs)
  {
    if s == [] then None
    else if s[0] !in cs then Some(0)
    else
      match FindFirstNotOf(s[1..], cs)
      case None => None
      case Some(i) => Some(i + 1)
  }

  /** The first character outside `cs` pins down what `find_first_not_of` returns. */
  lemma FindFirstNotOfIs(s: string, cs: set<char>, i: nat)
    requires i < |s| && s[i] !in cs && AllIn(s[..i], cs)
    ensures FindFirstNotOf(s, cs) == Some(i)
  {
  }

  /** `s.find_last_not_of(cs)`: the last index whose character is not in `cs`. */
  function FindLastNotOf(s: string, cs: set<char>): (r: Option<nat>)
    ensures match r
            case None => AllIn(s, cs)
            case Some(i) => i < |s| && s[i] !in cs && AllIn(s[i + 1..], cs)
  {
    if s == [] then None
    else if s[|s| - 1] !in cs then Some(|s| - 1)
    else FindLastNotOf(s[..|s| - 1], cs)
  }

  /** The last character outside `cs` pins down what `find_last_not_of` returns. */
  lemma FindLastNotOfIs(s: string, cs: set<char>, i: nat)
    requires i < |s| && s[i] !in cs && AllIn(s[i + 1..], cs)
    ensures FindLastNotOf(s, cs) == Some(i)
  {
  }

  /** `t` occurs in `s` starting at index `i`. */
  ghost predicate OccursAt(s: string, t: string, i: int)
  {
    0 <= i && i + |t| <= |s| && s[i..i + |t|] == t
  }

  /** `s.find(t) != npos`, and equally `strstr(s, t) != NULL`: `t` is a substring of `s`.
      The empty string occurs in every string. */
  function Contains(s: string, t: string): (r: bool)
    ensures r <==> exists i :: OccursAt(s, t, i)
    decreases |s|
  {
    if |t| > |s| then false
    else if s[..|t|] == t then
      assert OccursAt(s, t, 0);
      true
    else
      var tail := s[1..];
      var r := Contains(tail, t);
      if r then
        assert exists i :: OccursAt(s, t, i) by {
          var i :| OccursAt(tail, t, i);
          assert s[i + 1..i + 1 + |t|] == tail[i..i + |t|];
          assert OccursAt(s, t, i + 1);
        }
        true
      else
        assert forall i :: OccursAt(s, t, i) ==> OccursAt(tail, t, i - 1) by {
          forall i | OccursAt(s, t, i) ensures OccursAt(tail, t, i - 1) {
            assert i != 0;
            assert tail[i - 1..i - 1 + |t|] == s[i..i + |t|];
          }
        }
        false
  }

  /** A string holding a character that `s` lacks does not occur in `s`. */
  lemma NoOccurrence(s: string, t: string, c: char)
    requires c in t && c !in s
    ensures forall i :: !OccursAt(s, t, i)
  {
    forall i ensures !OccursAt(s, t, i) {
      if 0 <= i && i + |t| <= |s| {
        assert c in s[i..i + |t|] ==> c in s;
      }
    }
  }

  /** `s.compare(0, |p|, p) == 0`: the first |p| characters of `s` are exactly `p`. */
  predicate StartsWith(s: string, p: string)
  {
    |p| <= |s| && s[..|p|] == p
  }

  /** `s.erase(std::remove(s.begin(), s.end(), c), s.end())`: every `c` removed, the rest kept in order. */
  function RemoveChar(s: string, c: char): (r: string)
    ensures c !in r
    ensures |r| <= |s|
    ensures c !in s ==> r == s
  {
    if s == [] then []
    else
      var rest := RemoveChar(s[1..], c);
      if s[0] == c then rest else [s[0]] + rest
  }

  /** Removal keeps every other character, as many times as it occurs, and drops every `c`. */
  lemma {:induction false} RemoveCharCounts(s: string, c: char)
    ensures multiset(RemoveChar(s, c)) == multiset(s)[c := 0]
  {
    if s != [] {
      assert s == [s[0]] + s[1..];
      RemoveCharCounts(s[1..], c);
    }
  }

  /** Removal works piecewise on a concatenation. */
  lemma {:induction false} RemoveCharAppend(a: string, b: string, c: char)
    ensures RemoveChar(a + b, c) == RemoveChar(a, c) + RemoveChar(b, c)
  {
    if a == [] {
      assert a + b == b;
    } else {
      assert (a + b)[0] == a[0] && (a + b)[1..] == a[1..] + b;
      RemoveCharAppend(a[1..], b, c);
    }
  }

  /** Removal introduces no character. */
  lemma RemoveCharSubset(s: string, c: char)
    ensures forall x :: x in RemoveChar(s, c) ==> x in s
  {
    var r := RemoveChar(s, c);
    RemoveCharCounts(s, c);
    forall x | x in r ensures x in s {
      assert x in multiset(r);
    }
  }

  /** `::tolower` in the "C" locale: only 'A'..'Z' change. */
  function LowerChar(c: char): (r: char)
    ensures !('A' <= r <= 'Z')
    ensures 'A' <= c <= 'Z' ==> r as int == c as int + 32 && 'a' <= r <= 'z'
    ensures !('A' <= c <= 'Z') ==> r == c
  {
    if 'A' <= c <= 'Z' then (c as int + 32) as char else c
  }

  /** `std::transform(s.begin(), s.end(), s.begin(), ::tolower)`. */
  function ToLower(s: string): (r: string)
    ensures |r| == |s|
    ensures forall k :: 0 <= k < |s| ==> r[k] == LowerChar(s[k])
  {
    seq(|s|, k requires 0 <= k < |s| => LowerChar(s[k]))
  }

  /** No upper-case ASCII letter in `s`. */
  ghost predicate IsLowerCase(s: string)
  {
    forall k :: 0 <= k < |s| ==> !('A' <= s[k] <= 'Z')
  }

  /** `s[i..j]` runs from the first to the last character of `s` that is not in `ws`. */
  ghost predicate TrimmedAt(s: string, ws: set<char>, i: int, j: int)
  {
    && 0 <= i < j <= |s|
    && AllIn(s[..i], ws) && AllIn(s[j..], ws)
    && s[i] !in ws && s[j - 1] !in ws
  }

  /** The trimming bounds of a string are unique. */
  lemma TrimmedAtUnique(s: string, ws: set<char>, i: int, j: int, i': int, j': int)
    requires TrimmedAt(s, ws, i, j) && TrimmedAt(s, ws, i', j')
    ensures i == i' && j == j'
  {
  }
}

=== FILE: system_info_files.dfy ===
/**
 * The line loops of `get_distribution_info` (over /etc/os-release) and `get_cpu_name`
 * (over /proc/cpuinfo). A file is given as its sequence of lines, or `None` when it
 * cannot be opened. Each loop is a method proved against a function that folds the
 * per-line step over the lines read so far.
 */
module SystemInfoFiles {
  import opened Wrappers
  import opened CppString
  import opened SystemInfoText

  // ---------------------------------------------------------------- /etc/os-release

  /** The name and version of the distribution, as far as the lines read so far say. */
  datatype Distribution = Distribution(name: string, version: string)

  /**
   * The value an os-release line gives for `key`: the line starts with `key` and has a
   * value after its first '='; every '"' is removed from it and the rest is trimmed.
   */
  function OsReleaseValue(line: string, key: string): (r: Option<string>)
    ensures r.Some? <==> StartsWith(line, key) && ValueAfter(line, '=').Some?
    ensures r.Some? ==> '"' !in r.value && TrimWs(r.value) == r.value
  {
    if StartsWith(line, key) then
      match ValueAfter(line, '=')
      case Some(v) =>
        var unquoted := RemoveChar(v, '"');
        TrimWsKeepsCharacters(unquoted, '"');
        TrimWsIdempotent(unquoted);
        Some(TrimWs(unquoted))
      case None => None
    else None
  }

  /**
   * The value of `key="  u  "` (or of `key=  u  `, without the quotes) is `u`: the
   * quotes are removed first and the white space they enclosed is trimmed after.
   */
  lemma OsReleaseValueOf(key: string, quote: string, pre: string, u: string, post: string)
    requires '=' !in key
    requires quote == [] || quote == "\""
    requires AllIn(pre, WhiteSpace) && AllIn(post, WhiteSpace)
    requires |u| > 0 && u[0] !in WhiteSpace && u[|u| - 1] !in WhiteSpace
    requires '"' !in u && u[0] != '\0'
    ensures OsReleaseValue(key + "=" + quote + pre + u + post + quote, key) == Some(u)
  {
    var v := quote + pre + u + post + quote;
    var line := key + "=" + quote + pre + u + post + quote;
    assert line == key + ['='] + v;
    assert line[..|key|] == key;
    assert v[0] != '\0' by {
      if quote == [] && pre == [] {
        assert v[0] == u[0];
      }
    }
    ValueAfterOf(key, '=', v);
    UnquotedPadding(quote, pre, u, post);
    TrimWsPadded(pre, u, post);
  }

  /** Removing every '"' from `quote + pre + u + post + quote` leaves `pre + u + post`. */
  lemma UnquotedPadding(quote: string, pre: string, u: string, post: string)
    requires quote == [] || quote == "\""
    requires AllIn(pre, WhiteSpace) && AllIn(post, WhiteSpace) && '"' !in u
    ensures RemoveChar(quote + pre + u + post + quote, '"') == pre + u + post
  {
    assert '"' !in pre && '"' !in post;
    RemoveCharAppend(quote + pre + u + post, quote, '"');
    RemoveCharAppend(quote + pre + u, post, '"');
    RemoveCharAppend(quote + pre, u, '"');
    RemoveCharAppend(quote, pre, '"');
    assert RemoveChar(quote, '"') == [];
  }

  /** `NAME=" Arch "` names "Arch": the quotes go first, then the spaces they held. */
  lemma OsReleaseValueExample()
    ensures OsReleaseValue("NAME=\" Arch \"", "NAME") == Some("Arch")
  {
    assert "NAME=\" Arch \"" == "NAME" + "=" + "\"" + " " + "Arch" + " " + "\"";
    OsReleaseValueOf("NAME", "\"", " ", "Arch", " ");
  }

  /** One pass of the loop body: a NAME line sets the name (and skips the rest), a VERSION_ID line the version. */
  function DistroStep(d: Distribution, line: string): Distribution
  {
    match OsReleaseValue(line, "NAME")
    case Some(v) => d.(name := v)
    case None =>
      match OsReleaseValue(line, "VERSION_ID")
      case Some(v) => d.(version := v)
      case None => d
  }

  /** The state after the loop has read `lines`, starting from `d`. */
  function DistroFold(d: Distribution, lines: seq<string>): Distribution
  {
    if lines == [] then d else DistroStep(DistroFold(d, lines[..|lines| - 1]), lines[|lines| - 1])
  }

  /**
   * `get_distribution_info`: false, with nothing changed, when the file is missing;
   * otherwise true with the name and version folded over every line.
   */
  method DistributionInfo(osRelease: Option<seq<string>>, distro: string, version: string)
    returns (ok: bool, distro': string, version': string)
    ensures osRelease.None? ==> !ok && distro' == distro && version' == version
    ensures osRelease.Some? ==>
              ok && Distribution(distro', version') == DistroFold(Distribution(distro, version), osRelease.value)
  {
    if osRelease.None? {
      return false, distro, version;
    }
    var lines := osRelease.value;
    distro', version' := distro, version;
    var i := 0;
    while i < |lines|
      invariant 0 <= i <= |lines|
      invariant Distribution(distro', version') == DistroFold(Distribution(distro, version), lines[..i])
    {
      assert lines[..i + 1][..i] == lines[..i];
      var line := lines[i];
      ghost var step := DistroStep(Distribution(distro', version'), line);
      assert DistroFold(Distribution(distro, version), lines[..i + 1]) == step;
      var name := OsReleaseValue(line, "NAME");
      if name.Some? {
        distro' := name.value;
      } else {
        var ver := OsReleaseValue(line, "VERSION_ID");
        if ver.Some? {
          version' := ver.value;
        }
      }
      assert Distribution(distro', version') == step;
      i := i + 1;
    }
    assert lines[..i] == lines;
    return true, distro', version';
  }

  /** A VERSION_ID line is never a NAME line, so the `continue` after NAME never hides a version. */
  lemma VersionLineIsNotNameLine(line: string)
    requires StartsWith(line, "VERSION_ID")
    ensures !StartsWith(line, "NAME")
  {
    assert line[0] == 'V';
  }

  /** The name comes from the last line that gives one; a later NAME line overwrites an earlier one. */
  lemma {:induction false} DistroNameIsLast(d: Distribution, lines: seq<string>, k: nat)
    requires k < |lines| && OsReleaseValue(lines[k], "NAME").Some?
    requires forall j :: k < j < |lines| ==> OsReleaseValue(lines[j], "NAME").None?
    ensures DistroFold(d, lines).name == OsReleaseValue(lines[k], "NAME").value
  {
    var init := lines[..|lines| - 1];
    if k < |lines| - 1 {
      assert init[k] == lines[k];
      DistroNameIsLast(d, init, k);
    }
  }

  /** Without any NAME line that gives a value, the name is the one the caller passed in. */
  lemma {:induction false} DistroNameKept(d: Distribution, lines: seq<string>)
    requires forall j :: 0 <= j < |lines| ==> OsReleaseValue(lines[j], "NAME").None?
    ensures DistroFold(d, lines).name == d.name
  {
    if lines != [] {
      DistroNameKept(d, lines[..|lines| - 1]);
    }
  }

  /** The version comes from the last line that gives one; a later VERSION_ID line overwrites an earlier one. */
  lemma {:induction false} DistroVersionIsLast(d: Distribution, lines: seq<string>, k: nat)
    requires k < |lines| && OsReleaseValue(lines[k], "VERSION_ID").Some?
    requires forall j :: k < j < |lines| ==> OsReleaseValue(lines[j], "VERSION_ID").None?
    ensures DistroFold(d, lines).version == OsReleaseValue(lines[k], "VERSION_ID").value
  {
    var init := lines[..|lines| - 1];
    if k < |lines| - 1 {
      assert init[k] == lines[k];
      DistroVersionIsLast(d, init, k);
    } else {
      VersionLineIsNotNameLine(lines[k]);
    }
  }

  /** The values set from the file never hold a '"'. */
  lemma {:induction false} DistroUnquoted(d: Distribution, lines: seq<string>)
    requires '"' !in d.name && '"' !in d.version
    ensures '"' !in DistroFold(d, lines).name && '"' !in DistroFold(d, lines).version
  {
    if lines != [] {
      DistroUnquoted(d, lines[..|lines| - 1]);
    }
  }

  // ---------------------------------------------------------------- /proc/cpuinfo

  /** What `get_cpu_name` starts from when no "model name" line is found. */
  const Unavailable: string := "Unavailable"

  /** The processor name seen so far, and whether a "model name" line has set it. */
  datatype CpuState = CpuState(name: string, foundName: bool)

  /** What the loop body makes of one /proc/cpuinfo line. */
  datatype CpuLine =
    | ModelName(value: string)  // "model name" with a value: the trimmed value
    | PhysicalIdZero            // "physical id" whose value reads as 0 with `atoi`
    | OtherLine                 // anything else, including "physical id" lines that are not 0

  /** The trimmed value of a "model name" line. */
  function ModelNameValue(line: string): (r: Option<string>)
    ensures r.Some? <==> StartsWith(line, "model name") && ValueAfter(line, ':').Some?
    ensures r.Some? ==> TrimWs(r.value) == r.value
  {
    if StartsWith(line, "model name") then
      match ValueAfter(line, ':')
      case Some(v) =>
        TrimWsIdempotent(v);
        Some(TrimWs(v))
      case None => None
    else None
  }

  /** "model name<pad>:<white space>u<white space>" names the processor `u`. */
  lemma ModelNameValueOf(pad: string, pre: string, u: string, post: string)
    requires ':' !in pad
    requires AllIn(pre, WhiteSpace) && AllIn(post, WhiteSpace)
    requires |u| > 0 && u[0] !in WhiteSpace && u[|u| - 1] !in WhiteSpace && u[0] != '\0'
    ensures ModelNameValue("model name" + pad + ":" + pre + u + post) == Some(u)
  {
    var key := "model name";
    var v := pre + u + post;
    var line := key + pad + ":" + pre + u + post;
    assert line == (key + pad) + [':'] + v;
    assert line[..|key|] == key;
    assert v[0] != '\0' by {
      if pre == [] {
        assert v[0] == u[0];
      }
    }
    ValueAfterOf(key + pad, ':', v);
    TrimWsPadded(pre, u, post);
  }

  /** A typical /proc/cpuinfo line, with its tab before the ':'. */
  lemma ModelNameValueExample()
    ensures ModelNameValue("model name\t: AMD Ryzen 7 5800X") == Some("AMD Ryzen 7 5800X")
  {
    assert "model name\t: AMD Ryzen 7 5800X" == "model name" + "\t" + ":" + " " + "AMD Ryzen 7 5800X" + "";
    ModelNameValueOf("\t", " ", "AMD Ryzen 7 5800X", "");
  }

  /** True for a "physical id" line whose value reads as 0 with `atoi`. */
  predicate IsPhysicalIdZero(line: string)
  {
    && StartsWith(line, "physical id")
    && match ValueAfter(line, ':')
       case Some(v) => Atoi(v) == 0
       case None => false
  }

  /**
   * The branch of the loop body a line takes; the "model name" test comes first.
   * The ensures are the bridge the proof of `CpuName` crosses to reach `ModelNameValue`
   * and `IsPhysicalIdZero`.
   */
  function ClassifyCpuLine(line: string): (c: CpuLine)
    ensures c.ModelName? <==> ModelNameValue(line).Some?
    ensures c.ModelName? ==> c.value == ModelNameValue(line).value
    ensures c.PhysicalIdZero? <==> ModelNameValue(line).None? && IsPhysicalIdZero(line)
  {
    match ModelNameValue(line)
    case Some(v) => ModelName(v)
    case None => if IsPhysicalIdZero(line) then PhysicalIdZero else OtherLine
  }

  /** Every line of a file, classified. */
  function ClassifyCpuLines(lines: seq<string>): (r: seq<CpuLine>)
    ensures |r| == |lines|
    ensures forall k :: 0 <= k < |lines| ==> r[k] == ClassifyCpuLine(lines[k])
  {
    seq(|lines|, k requires 0 <= k < |lines| => ClassifyCpuLine(lines[k]))
  }

  /**
   * The loop from `st` over `lines`: a "model name" line sets the name; a "physical id"
   * line reading 0 once a name has been found ends the loop.
   */
  function CpuScan(st: CpuState, lines: seq<CpuLine>): CpuState
    decreases |lines|
  {
    if lines == [] then st
    else
      match lines[0]
      case ModelName(v) => CpuScan(CpuState(v, true), lines[1..])
      case PhysicalIdZero => if st.foundName then st else CpuScan(st, lines[1..])
      case OtherLine => CpuScan(st, lines[1..])
  }

  /**
   * `get_cpu_name`: "Unavailable" when the file is missing or has no usable "model name"
   * line, otherwise the name the scan ends with. It always reports success.
   */
  method CpuName(cpuinfo: Option<seq<string>>) returns (ok: bool, name: string)
    ensures ok
    ensures cpuinfo.None? ==> name == Unavailable
    ensures cpuinfo.Some? ==> name == CpuScan(CpuState(Unavailable, false), ClassifyCpuLines(cpuinfo.value)).name
  {
    name := Unavailable;
    var foundName := false;
    if cpuinfo.Some? {
      var lines := cpuinfo.value;
      ghost var classified := ClassifyCpuLines(lines);
      var i := 0;
      while i < |lines|
        invariant 0 <= i <= |lines|
        invariant CpuScan(CpuState(name, foundName), classified[i..]) == CpuScan(CpuState(Unavailable, false), classified)
      {
        assert classified[i..][0] == ClassifyCpuLine(lines[i]);
        assert classified[i..][1..] == classified[i + 1..];
        var model := ModelNameValue(lines[i]);
        if model.Some? {
          assert classified[i] == ModelName(model.value);
          name, foundName := model.value, true;
        } else if IsPhysicalIdZero(lines[i]) && foundName {
          assert classified[i] == PhysicalIdZero;
          break;
        } else {
          assert CpuScan(CpuState(name, foundName), classified[i..])
              == CpuScan(CpuState(name, foundName), classified[i + 1..]);
        }
        i := i + 1;
      }
    }
    return true, name;
  }

  /** The scan ends with the name it started from or with the value of one of the "model name" lines. */
  lemma {:induction false} CpuScanNameSource(st: CpuState, lines: seq<CpuLine>)
    ensures var r := CpuScan(st, lines);
            r.name == st.name || exists k :: 0 <= k < |lines| && lines[k] == ModelName(r.name)
    decreases |lines|
  {
    if lines != [] {
      var r := CpuScan(st, lines);
      var st' := if lines[0].ModelName? then CpuState(lines[0].value, true) else st;
      if lines[0].ModelName? || !(lines[0].PhysicalIdZero? && st.foundName) {
        CpuScanNameSource(st', lines[1..]);
        if r.name != st'.name {
          var k :| 0 <= k < |lines[1..]| && lines[1..][k] == ModelName(r.name);
          assert lines[k + 1] == lines[1..][k];
        }
      }
    }
  }

  /** Without a usable "model name" line the name stays what it was. */
  lemma {:induction false} CpuScanNoModelName(st: CpuState, lines: seq<CpuLine>)
    requires forall k :: 0 <= k < |lines| ==> !lines[k].ModelName?
    ensures CpuScan(st, lines).name == st.name
    decreases |lines|
  {
    if lines != [] {
      assert forall k :: 0 <= k < |lines[1..]| ==> lines[1..][k] == lines[k + 1];
      CpuScanNoModelName(st, lines[1..]);
    }
  }

  /** The name `get_cpu_name` reports is "Unavailable" or the trimmed value of a "model name" line of the file. */
  lemma CpuNameSource(lines: seq<string>)
    ensures var name := CpuScan(CpuState(Unavailable, false), ClassifyCpuLines(lines)).name;
            name == Unavailable || exists k :: 0 <= k < |lines| && ModelNameValue(lines[k]) == Some(name)
  {
    var classified := ClassifyCpuLines(lines);
    CpuScanNameSource(CpuState(Unavailable, false), classified);
    var name := CpuScan(CpuState(Unavailable, false), classified).name;
    if name != Unavailable {
      var k :| 0 <= k < |classified| && classified[k] == ModelName(name);
      assert ClassifyCpuLine(lines[k]) == ModelName(name);
    }
  }

  /**
   * Once a "model name" line has been seen, a "physical id" line reading 0 ends the scan:
   * nothing after it changes the result.
   */
  lemma {:induction false} CpuScanStopsAtPhysicalIdZero(st: CpuState, pre: seq<CpuLine>, rest: seq<CpuLine>)
    requires st.foundName || exists j :: 0 <= j < |pre| && pre[j].ModelName?
    ensures CpuScan(st, pre + [PhysicalIdZero] + rest) == CpuScan(st, pre + [PhysicalIdZero])
    decreases |pre|
  {
    var a := pre + [PhysicalIdZero] + rest;
    var b := pre + [PhysicalIdZero];
    if pre == [] {
      assert a[0] == PhysicalIdZero && b[0] == PhysicalIdZero;
    } else {
      var tail := pre[1..];
      assert a[0] == pre[0] && a[1..] == tail + [PhysicalIdZero] + rest;
      assert b[0] == pre[0] && b[1..] == tail + [PhysicalIdZero];
      var st' := if pre[0].ModelName? then CpuState(pre[0].value, true) else st;
      if pre[0].ModelName? || !(pre[0].PhysicalIdZero? && st.foundName) {
        if !st'.foundName {
          var j :| 0 <= j < |pre| && pre[j].ModelName?;
          assert tail[j - 1] == pre[j];
        }
        CpuScanStopsAtPhysicalIdZero(st', tail, rest);
      }
    }
  }
}

=== FILE: system_info_gpu.dfy ===
/**
 * The GPU half of `system_gpu_data`: the renderer tokens are cleaned up, each DRM card
 * is scored by how many tokens its PCI device and vendor names contain, the cards are
 * sorted strongest first, and the GPU list is built from them, the first entry taking
 * the driver version and memory sizes reported by the graphics API.
 */
module SystemInfoGpu {
  import opened CppString
  import opened SystemInfoText

  /** 2^16: uint16_t arithmetic is taken modulo this. */
  const U16Modulus: nat := 0x1_0000

  type U16 = n: nat | n < U16Modulus

  /** What is known about one DRM card once its PCI names have been looked up. */
  datatype DrmCard = DrmCard(
    vendorId: U16,
    deviceId: U16,
    subsystemVendor: U16,
    subsystemDevice: U16,
    matchCount: U16,
    dedicatedVramTotal: SizeT,
    sharedSystemMemoryTotal: SizeT,
    bootVga: bool,
    dbsf: string,
    deviceName: CppStr,
    vendorName: string)

  /** One entry of the GPU list sent with the multitrack video request. */
  datatype Gpu = Gpu(
    deviceId: U16,
    vendorId: U16,
    model: string,
    driverVersion: string,
    dedicatedVideoMemory: SizeT,
    sharedSystemMemory: SizeT)

  // ---------------------------------------------------------------- renderer tokens

  /** The characters removed from every renderer token. */
  const ExtraChars: string := ",()[]{}"

  /** Remove every occurrence of `chars[0]`, then of `chars[1]`, and so on. */
  function RemoveEach(t: string, chars: string): (r: string)
    ensures forall c :: c in chars ==> c !in r
    ensures forall x :: x in r ==> x in t
    ensures (forall c :: c in chars ==> c !in t) ==> r == t
  {
    if chars == [] then t
    else
      var init := RemoveEach(t, chars[..|chars| - 1]);
      var c := chars[|chars| - 1];
      RemoveCharSubset(init, c);
      assert forall x :: x in chars ==> x in chars[..|chars| - 1] || x == c;
      assert forall x :: x in chars[..|chars| - 1] ==> x in chars;
      RemoveChar(init, c)
  }

  /** Every character outside `chars` is kept, as many times as it occurs. */
  lemma {:induction false} RemoveEachCounts(t: string, chars: string, x: char)
    requires x !in chars
    ensures multiset(RemoveEach(t, chars))[x] == multiset(t)[x]
  {
    if chars != [] {
      var init := chars[..|chars| - 1];
      assert x !in init by {
        assert forall y :: y in init ==> y in chars;
      }
      RemoveEachCounts(t, init, x);
      RemoveCharCounts(RemoveEach(t, init), chars[|chars| - 1]);
    }
  }

  /** Removal keeps the order of what is left: it works piece by piece. */
  lemma {:induction false} RemoveEachAppend(a: string, b: string, chars: string)
    ensures RemoveEach(a + b, chars) == RemoveEach(a, chars) + RemoveEach(b, chars)
  {
    if chars != [] {
      var init := chars[..|chars| - 1];
      RemoveEachAppend(a, b, init);
      RemoveCharAppend(RemoveEach(a, init), RemoveEach(b, init), chars[|chars| - 1]);
    }
  }

  /** A token after the clean-up: the extra characters removed, then lower-cased. */
  function CleanToken(t: string): (r: string)
    ensures |r| <= |t|
    ensures IsLowerCase(r)
    ensures forall c :: c in ExtraChars ==> c !in r
    ensures (forall c :: c in ExtraChars ==> c !in t) ==> r == ToLower(t)
  {
    var stripped := RemoveEach(t, ExtraChars);
    var r := ToLower(stripped);
    assert forall k :: 0 <= k < |r| ==> r[k] !in ExtraChars by {
      forall k | 0 <= k < |r| ensures r[k] !in ExtraChars {
        assert stripped[k] in stripped;
      }
    }
    RemoveEachShorter(t, ExtraChars);
    r
  }

  /**
   * Every character of the token that is not one of the extra characters survives the
   * clean-up, lowered; and every character of the cleaned token is such a survivor.
   */
  lemma CleanTokenKeeps(t: string)
    ensures forall x :: x in t && x !in ExtraChars ==> LowerChar(x) in CleanToken(t)
    ensures forall y :: y in CleanToken(t) ==> exists x :: x in t && x !in ExtraChars && y == LowerChar(x)
  {
    var stripped := RemoveEach(t, ExtraChars);
    var r := CleanToken(t);
    assert r == ToLower(stripped);
    forall x | x in t && x !in ExtraChars
      ensures LowerChar(x) in r
    {
      RemoveEachCounts(t, ExtraChars, x);
      assert x in multiset(stripped);
      var k :| 0 <= k < |stripped| && stripped[k] == x;
      assert r[k] == LowerChar(x);
    }
    forall y | y in r
      ensures exists x :: x in t && x !in ExtraChars && y == LowerChar(x)
    {
      var k :| 0 <= k < |r| && r[k] == y;
      assert stripped[k] in stripped;
    }
  }

  /** Renderer tokens without extra characters are only lowered: "NVIDIA" becomes "nvidia". */
  lemma CleanTokenExample()
    ensures CleanToken("NVIDIA") == "nvidia"
  {
    var vendor := "NVIDIA";
    assert forall c :: c in ExtraChars ==> c !in vendor;
  }

  lemma {:induction false} RemoveEachShorter(t: string, chars: string)
    ensures |RemoveEach(t, chars)| <= |t|
  {
    if chars != [] {
      RemoveEachShorter(t, chars[..|chars| - 1]);
    }
  }

  /**
   * The token loop: every token has the extra characters erased one after the other
   * and is then lower-cased, in place.
   */
  method CleanTokens(tokens: array<string>)
    modifies tokens
    ensures forall k :: 0 <= k < tokens.Length ==> tokens[k] == CleanToken(old(tokens[k]))
  {
    for j := 0 to tokens.Length
      invariant forall k :: 0 <= k < j ==> tokens[k] == CleanToken(old(tokens[k]))
      invariant forall k :: j <= k < tokens.Length ==> tokens[k] == old(tokens[k])
    {
      var token := StripExtraChars(tokens[j]);
      tokens[j] := ToLower(token);
    }
  }

  /** The inner loop of the token clean-up: each extra character erased in turn. */
  method StripExtraChars(token: string) returns (stripped: string)
    ensures stripped == RemoveEach(token, ExtraChars)
  {
    stripped := token;
    for i := 0 to |ExtraChars|
      invariant stripped == RemoveEach(token, ExtraChars[..i])
    {
      assert ExtraChars[..i + 1][..i] == ExtraChars[..i];
      assert ExtraChars[..i + 1][i] == ExtraChars[i];
      stripped := RemoveChar(stripped, ExtraChars[i]);
    }
    assert ExtraChars[..|ExtraChars|] == ExtraChars;
  }

  // ---------------------------------------------------------------- match counting

  /** How many of `tokens` occur in `name`, counting repeated tokens each time. */
  function TokensFoundIn(name: string, tokens: seq<string>): (n: nat)
    ensures n <= |tokens|
  {
    if tokens == [] then 0
    else TokensFoundIn(name, tokens[..|tokens| - 1]) + (if Contains(name, tokens[|tokens| - 1]) then 1 else 0)
  }

  /** The positions of the tokens that occur in `name`. */
  ghost function FoundPositions(name: string, tokens: seq<string>): set<nat>
  {
    set k: nat | k < |tokens| && Contains(name, tokens[k])
  }

  /** The count is the number of token positions whose token occurs in the name. */
  lemma {:induction false} TokensFoundInCountsPositions(name: string, tokens: seq<string>)
    ensures TokensFoundIn(name, tokens) == |FoundPositions(name, tokens)|
  {
    if tokens != [] {
      var n := |tokens| - 1;
      var init := tokens[..n];
      TokensFoundInCountsPositions(name, init);
      var before := FoundPositions(name, init);
      var after := FoundPositions(name, tokens);
      if Contains(name, tokens[n]) {
        assert after == before + {n};
        assert n !in before;
      } else {
        assert after == before;
      }
    }
  }

  /** An empty token occurs in every name. */
  lemma EmptyTokenAlwaysFound(name: string, tokens: seq<string>)
    requires tokens == [""]
    ensures TokensFoundIn(name, tokens) == 1
  {
    assert OccursAt(name, "", 0);
    assert tokens[..0] == [];
  }

  /**
   * A card's `match_count`: the tokens found in its lower-cased device name plus those
   * found in its lower-cased vendor name, counted in a uint16_t.
   */
  function MatchCount(card: DrmCard, tokens: seq<string>): U16
  {
    (TokensFoundIn(ToLower(card.deviceName), tokens) + TokensFoundIn(ToLower(card.vendorName), tokens)) % U16Modulus
  }

  /** Unless there are 32768 tokens or more, the count does not wrap and is at most twice the number of tokens. */
  lemma MatchCountBound(card: DrmCard, tokens: seq<string>)
    requires 2 * |tokens| < U16Modulus
    ensures MatchCount(card, tokens)
            == TokensFoundIn(ToLower(card.deviceName), tokens) + TokensFoundIn(ToLower(card.vendorName), tokens)
    ensures MatchCount(card, tokens) <= 2 * |tokens|
  {
  }

  /** Adding one to a count kept modulo 2^16. */
  lemma IncrementWraps(x: nat)
    ensures (x % U16Modulus + 1) % U16Modulus == (x + 1) % U16Modulus
  {
  }

  /**
   * The inner loop for one card: one increment per token found in the lower-cased device
   * name and one per token found in the lower-cased vendor name, in a uint16_t.
   */
  method CountMatches(deviceName: string, vendorName: string, tokens: seq<string>) returns (count: U16)
    ensures count == (TokensFoundIn(deviceName, tokens) + TokensFoundIn(vendorName, tokens)) % U16Modulus
  {
    count := 0;
    ghost var total := 0;
    for t := 0 to |tokens|
      invariant total == TokensFoundIn(deviceName, tokens[..t]) + TokensFoundIn(vendorName, tokens[..t])
      invariant count == total % U16Modulus
    {
      TokensFoundInStep(deviceName, tokens, t);
      TokensFoundInStep(vendorName, tokens, t);
      if Contains(deviceName, tokens[t]) {
        IncrementWraps(total);
        count, total := (count + 1) % U16Modulus, total + 1;
      }
      if Contains(vendorName, tokens[t]) {
        IncrementWraps(total);
        count, total := (count + 1) % U16Modulus, total + 1;
      }
    }
    assert tokens[..|tokens|] == tokens;
  }

  /** One more token adds one to the count when it occurs in the name. */
  lemma TokensFoundInStep(name: string, tokens: seq<string>, t: nat)
    requires t < |tokens|
    ensures TokensFoundIn(name, tokens[..t + 1])
            == TokensFoundIn(name, tokens[..t]) + (if Contains(name, tokens[t]) then 1 else 0)
  {
    assert tokens[..t + 1][..t] == tokens[..t];
  }

  /** The scoring loop: every card's match count is reset and recounted against the tokens. */
  method ScoreCards(cards: array<DrmCard>, tokens: seq<string>)
    modifies cards
    ensures forall k :: 0 <= k < cards.Length ==>
              cards[k] == old(cards[k]).(matchCount := MatchCount(old(cards[k]), tokens))
  {
    for c := 0 to cards.Length
      invariant forall k :: 0 <= k < c ==>
                  cards[k] == old(cards[k]).(matchCount := MatchCount(old(cards[k]), tokens))
      invariant forall k :: c <= k < cards.Length ==> cards[k] == old(cards[k])
    {
      var count := CountMatches(ToLower(cards[c].deviceName), ToLower(cards[c].vendorName), tokens);
      cards[c] := cards[c].(matchCount := count);
    }
  }

  // ---------------------------------------------------------------- sorting

  /** `compare_match_strength`: `a` goes before `b` when it matched strictly more tokens. */
  predicate CompareMatchStrength(a: DrmCard, b: DrmCard)
  {
    a.matchCount > b.matchCount
  }

  /** The comparison is a strict weak order, as `std::sort` requires. */
  lemma CompareMatchStrengthIsStrictWeakOrder(a: DrmCard, b: DrmCard, c: DrmCard)
    ensures !CompareMatchStrength(a, a)
    ensures CompareMatchStrength(a, b) && CompareMatchStrength(b, c) ==> CompareMatchStrength(a, c)
    ensures !CompareMatchStrength(a, b) && !CompareMatchStrength(b, a)
            && !CompareMatchStrength(b, c) && !CompareMatchStrength(c, b)
            ==> !CompareMatchStrength(a, c) && !CompareMatchStrength(c, a)
  {
  }

  /** No card comes after a card it beats. */
  ghost predicate SortedByMatchStrength(s: seq<DrmCard>)
  {
    forall i, j :: 0 <= i < j < |s| ==> !CompareMatchStrength(s[j], s[i])
  }

  /** The index of a strongest card in `cards[from..]`. */
  method StrongestFrom(cards: array<DrmCard>, from: nat) returns (m: nat)
    requires from < cards.Length
    ensures from <= m < cards.Length
    ensures forall k :: from <= k < cards.Length ==> !CompareMatchStrength(cards[k], cards[m])
  {
    m := from;
    for k := from + 1 to cards.Length
      invariant from <= m < cards.Length
      invariant forall x :: from <= x < k ==> !CompareMatchStrength(cards[x], cards[m])
    {
      if CompareMatchStrength(cards[k], cards[m]) {
        m := k;
      }
    }
  }

  /**
   * `std::sort(drm_cards.begin(), drm_cards.end(), compare_match_strength)`: the cards end
   * up strongest first, as a rearrangement of what they were. The order of cards with the
   * same count is left open, as `std::sort` is not stable.
   */
  method SortByMatchStrength(cards: array<DrmCard>)
    modifies cards
    ensures SortedByMatchStrength(cards[..])
    ensures multiset(cards[..]) == multiset(old(cards[..]))
  {
    for i := 0 to cards.Length
      invariant SelectedUpTo(cards[..], i)
      invariant multiset(cards[..]) == multiset(old(cards[..]))
    {
      var m := StrongestFrom(cards, i);
      ghost var before := cards[..];
      cards[i], cards[m] := cards[m], cards[i];
      assert cards[..] == before[i := before[m]][m := before[i]];
      SelectionStep(before, cards[..], i, m);
    }
    SelectedAllIsSorted(cards[..]);
  }

  /**
   * The selection-sort invariant: `s[..i]` is in order and no card after position `i`
   * beats a card before it.
   */
  ghost predicate SelectedUpTo(s: seq<DrmCard>, i: nat)
  {
    && i <= |s|
    && (forall x, y :: 0 <= x < y < i ==> !CompareMatchStrength(s[y], s[x]))
    && (forall x, y :: 0 <= x < i <= y < |s| ==> !CompareMatchStrength(s[y], s[x]))
  }

  /** Swapping a strongest card of the rest into position `i` extends the sorted part by one. */
  lemma SelectionStep(before: seq<DrmCard>, after: seq<DrmCard>, i: nat, m: nat)
    requires SelectedUpTo(before, i) && i <= m < |before|
    requires forall k :: i <= k < |before| ==> !CompareMatchStrength(before[k], before[m])
    requires after == before[i := before[m]][m := before[i]]
    ensures SelectedUpTo(after, i + 1)
    ensures multiset(after) == multiset(before)
  {
  }

  lemma SelectedAllIsSorted(s: seq<DrmCard>)
    requires SelectedUpTo(s, |s|)
    ensures SortedByMatchStrength(s)
  {
  }

  // ---------------------------------------------------------------- the GPU list

  /** The driver version reported for every GPU but the one in use. */
  const UnknownDriver: string := "Unknown"

  /** The list entry for the card at `index` of the sorted list. */
  function GpuFor(card: DrmCard, index: nat, driverVersion: string, dedicatedMemory: SizeT, sharedMemory: SizeT): Gpu
  {
    var model := AdjustGpuModel(card.deviceName);
    if index == 0 then Gpu(card.deviceId, card.vendorId, model, driverVersion, dedicatedMemory, sharedMemory)
    else Gpu(card.deviceId, card.vendorId, model, UnknownDriver, card.dedicatedVramTotal, card.sharedSystemMemoryTotal)
  }

  /**
   * The list loop: one entry per card, in order, each with the card's ids and adjusted
   * model name. The first card is the one in use and takes the graphics API's driver
   * version and memory sizes; the others take "Unknown" and their sysfs totals.
   */
  method BuildGpuList(cards: seq<DrmCard>, driverVersion: string, dedicatedMemory: SizeT, sharedMemory: SizeT)
    returns (adapters: seq<Gpu>)
    ensures |adapters| == |cards|
    ensures forall k :: 0 <= k < |cards| ==>
              && adapters[k].deviceId == cards[k].deviceId
              && adapters[k].vendorId == cards[k].vendorId
              && adapters[k].model == AdjustGpuModel(cards[k].deviceName)
    ensures |cards| > 0 ==>
              && adapters[0].driverVersion == driverVersion
              && adapters[0].dedicatedVideoMemory == dedicatedMemory
              && adapters[0].sharedSystemMemory == sharedMemory
    ensures forall k :: 1 <= k < |cards| ==>
              && adapters[k].driverVersion == UnknownDriver
              && adapters[k].dedicatedVideoMemory == cards[k].dedicatedVramTotal
              && adapters[k].sharedSystemMemory == cards[k].sharedSystemMemoryTotal
    ensures forall k :: 0 <= k < |cards| ==> adapters[k] == GpuFor(cards[k], k, driverVersion, dedicatedMemory, sharedMemory)
  {
    adapters := [];
    for k := 0 to |cards|
      invariant |adapters| == k
      invariant forall j :: 0 <= j < k ==> adapters[j] == GpuFor(cards[j], j, driverVersion, dedicatedMemory, sharedMemory)
    {
      adapters := adapters + [GpuFor(cards[k], k, driverVersion, dedicatedMemory, sharedMemory)];
    }
  }

  /** The memory size the graphics API reports in KiB, in bytes as a uint64_t. */
  function KibToBytes(kib: SizeT): (r: SizeT)
    ensures kib < SizeModulus / 1024 ==> r == kib * 1024
  {
    SizeMul(kib, 1024)
  }

  /**
   * `system_gpu_data` from the renderer tokens and the scanned cards on: tokens cleaned,
   * cards scored and sorted, and the GPU list built from the sorted cards. `ranked` is the
   * card list after the sort.
   */
  method SystemGpuData(rendererTokens: seq<string>, scanned: seq<DrmCard>, driverVersion: string,
                       dedicatedKib: SizeT, sharedKib: SizeT)
    returns (adapters: seq<Gpu>, ranked: seq<DrmCard>)
    ensures SortedByMatchStrength(ranked)
    ensures multiset(ranked) == multiset(Scored(scanned, CleanTokenSeq(rendererTokens)))
    ensures |adapters| == |ranked| == |scanned|
    ensures forall k :: 0 <= k < |ranked| ==> adapters[k].model == AdjustGpuModel(ranked[k].deviceName)
    ensures |ranked| > 0 ==>
              && adapters[0].driverVersion == driverVersion
              && adapters[0].dedicatedVideoMemory == KibToBytes(dedicatedKib)
              && adapters[0].sharedSystemMemory == KibToBytes(sharedKib)
    ensures forall k :: 1 <= k < |ranked| ==> adapters[k].driverVersion == UnknownDriver
    ensures forall k :: 0 <= k < |ranked| ==>
              adapters[k] == GpuFor(ranked[k], k, driverVersion, KibToBytes(dedicatedKib), KibToBytes(sharedKib))
  {
    var dedicatedMemory := KibToBytes(dedicatedKib);
    var sharedMemory := KibToBytes(sharedKib);
    var tokens := new string[|rendererTokens|](i requires 0 <= i < |rendererTokens| => rendererTokens[i]);
    CleanTokens(tokens);
    assert tokens[..] == CleanTokenSeq(rendererTokens);
    var cards := new DrmCard[|scanned|](i requires 0 <= i < |scanned| => scanned[i]);
    ScoreCards(cards, tokens[..]);
    assert cards[..] == Scored(scanned, tokens[..]);
    SortByMatchStrength(cards);
    ranked := cards[..];
    adapters := BuildGpuList(ranked, driverVersion, dedicatedMemory, sharedMemory);
    assert |ranked| == |multiset(ranked)| == |multiset(Scored(scanned, CleanTokenSeq(rendererTokens)))|;
  }

  /** Every token cleaned up. */
  function CleanTokenSeq(tokens: seq<string>): (r: seq<string>)
    ensures |r| == |tokens| && forall k :: 0 <= k < |tokens| ==> r[k] == CleanToken(tokens[k])
  {
    seq(|tokens|, k requires 0 <= k < |tokens| => CleanToken(tokens[k]))
  }

  /** Every card with its match count against `tokens`. */
  function Scored(cards: seq<DrmCard>, tokens: seq<string>): (r: seq<DrmCard>)
    ensures |r| == |cards|
    ensures forall k :: 0 <= k < |cards| ==> r[k] == cards[k].(matchCount := MatchCount(cards[k], tokens))
  {
    seq(|cards|, k requires 0 <= k < |cards| => cards[k].(matchCount := MatchCount(cards[k], tokens)))
  }
}

=== FILE: system_info_host.dfy ===
/**
 * The "system" and processor-name part of `system_info`: the distribution name and
 * release with their fallbacks, the kernel version string assembled from `uname` and
 * cut to 128 characters, and the 64-bit and ARM classification of the machine name.
 */
module SystemInfoHost {
  import opened Wrappers
  import opened CppString
  import opened SystemInfoFiles

  /** `max_sys_data_version_sz`: the longest version string sent. */
  const MaxVersionSize: nat := 128

  /** The fields of `struct utsname` that are read. */
  datatype Utsname = Utsname(sysname: string, release: string, version: string, machine: string)

  /** sysname, release and version joined by single spaces, before the cut. */
  function FullKernelVersion(u: Utsname): (r: string)
    ensures |r| == |u.sysname| + |u.release| + |u.version| + 2
    ensures StartsWith(r, u.sysname)
    ensures var n, m := |u.sysname|, |u.sysname| + 1 + |u.release|;
            && r[n] == ' ' && r[n + 1..m] == u.release
            && r[m] == ' ' && r[m + 1..] == u.version
  {
    u.sysname + " " + u.release + " " + u.version
  }

  /** The version string: the joined text, resized to 128 characters when it is longer. */
  function KernelVersion(u: Utsname): (r: string)
    ensures |r| <= MaxVersionSize
    ensures |FullKernelVersion(u)| <= MaxVersionSize ==> r == FullKernelVersion(u)
    ensures |FullKernelVersion(u)| > MaxVersionSize ==> |r| == MaxVersionSize
    ensures StartsWith(FullKernelVersion(u), r)
  {
    var full := FullKernelVersion(u);
    if |full| > MaxVersionSize then full[..MaxVersionSize] else full
  }

  /** An Ubuntu kernel: "Linux", "6.8.0-45-generic" and "#45-Ubuntu SMP" give the whole joined text. */
  lemma KernelVersionExample()
    ensures KernelVersion(Utsname("Linux", "6.8.0-45-generic", "#45-Ubuntu SMP", "x86_64"))
            == "Linux 6.8.0-45-generic #45-Ubuntu SMP"
  {
    var u := Utsname("Linux", "6.8.0-45-generic", "#45-Ubuntu SMP", "x86_64");
    assert FullKernelVersion(u) == "Linux 6.8.0-45-generic #45-Ubuntu SMP";
  }

  /** `bits`: 64 when the machine name contains "64" anywhere, as in "x86_64" or "aarch64", else 32. */
  function Bits(machine: string): (b: nat)
    ensures b == 64 <==> exists i :: OccursAt(machine, "64", i)
    ensures b == 32 <==> !exists i :: OccursAt(machine, "64", i)
  {
    if Contains(machine, "64") then 64 else 32
  }

  /** `arm`: true when the machine name contains "aarch" anywhere. */
  function IsArm(machine: string): (arm: bool)
    ensures arm <==> exists i :: OccursAt(machine, "aarch", i)
  {
    Contains(machine, "aarch")
  }

  /** The usual machine names: "x86_64" is 64-bit and not ARM, "aarch64" 64-bit ARM, "i686" 32-bit. */
  lemma MachineExamples()
    ensures Bits("x86_64") == 64 && !IsArm("x86_64")
    ensures Bits("aarch64") == 64 && IsArm("aarch64")
    ensures Bits("i686") == 32 && !IsArm("i686")
  {
    var x86, arm64, i686 := "x86_64", "aarch64", "i686";
    assert OccursAt(x86, "64", 4);
    assert OccursAt(arm64, "64", 5);
    assert OccursAt(arm64, "aarch", 0);
    NoOccurrence(x86, "aarch", 'a');
    NoOccurrence(i686, "64", '4');
    NoOccurrence(i686, "aarch", 'a');
  }

  /** "armv7l", a 32-bit ARM machine, is classified as neither 64-bit nor ARM. */
  lemma Armv7IsNotArm()
    ensures Bits("armv7l") == 32 && !IsArm("armv7l")
  {
    var machine := "armv7l";
    NoOccurrence(machine, "64", '6');
    NoOccurrence(machine, "aarch", 'c');
  }

  /** The "system" record of the capabilities, with the processor name. */
  datatype SystemData = SystemData(
    name: string,
    release: string,
    version: string,
    bits: Option<nat>,
    arm: Option<bool>,
    cpuName: string)

  const FallbackName: string := "Linux-based distribution"
  const UnknownValue: string := "unknown"
  const UnknownCpu: string := "Unknown"

  /**
   * `system_info` from the file contents and the `uname` result (`None` when it fails):
   * the distribution with its fallback, the processor name, and the version, bits and
   * arm values; when `uname` fails the version is "unknown" and bits and arm are left
   * as they were. `name`, `release`, `bits` and `arm` are the values the record held before.
   */
  method SystemInfo(osRelease: Option<seq<string>>, cpuinfo: Option<seq<string>>, uts: Option<Utsname>,
                    name: string, release: string, bits: Option<nat>, arm: Option<bool>)
    returns (sys: SystemData)
    ensures osRelease.None? ==> sys.name == FallbackName && sys.release == UnknownValue
    ensures osRelease.Some? ==>
              Distribution(sys.name, sys.release) == DistroFold(Distribution(name, release), osRelease.value)
    // get_cpu_name never fails, so the "Unknown" fallback is never taken
    ensures cpuinfo.None? ==> sys.cpuName == Unavailable
    ensures cpuinfo.Some? ==>
              sys.cpuName == CpuScan(CpuState(Unavailable, false), ClassifyCpuLines(cpuinfo.value)).name
    ensures uts.None? ==> sys.version == UnknownValue && sys.bits == bits && sys.arm == arm
    ensures uts.Some? ==>
              && |sys.version| <= MaxVersionSize
              && sys.version == KernelVersion(uts.value)
              && StartsWith(FullKernelVersion(uts.value), sys.version)
              && sys.bits == Some(Bits(uts.value.machine))
              && sys.arm == Some(IsArm(uts.value.machine))
  {
    var ok, cpuName := CpuName(cpuinfo);
    if !ok {
      cpuName := UnknownCpu;
    }
    var found, distro, version := DistributionInfo(osRelease, name, release);
    if !found {
      distro, version := FallbackName, UnknownValue;
    }
    var kernel := UnknownValue;
    var bits', arm' := bits, arm;
    if uts.Some? {
      bits' := Some(Bits(uts.value.machine));
      arm' := Some(IsArm(uts.value.machine));
      kernel := KernelVersion(uts.value);
    }
    sys := SystemData(distro, version, kernel, bits', arm', cpuName);
  }
}

=== FILE: system_info_text.dfy ===
/**
 * The string clean-ups of the Linux system-info collector: whitespace trimming,
 * the GPU model adjustment, the PCI domain:bus:slot:function clean-up, the
 * "key<sep>value" extraction used on /etc/os-release and /proc/cpuinfo lines, and
 * `atoi`.
 */
module SystemInfoText {
  import opened Wrappers
  import opened CppString

  /** The characters `trim_ws` removes: " \f\n\r\t\v". The same six are `isspace` in the "C" locale. */
  const WhiteSpace: set<char> := {' ', '\U{C}', '\n', '\r', '\t', '\U{B}'}

  /**
   * `trim_ws`: drop leading and trailing white space. Each half only acts when
   * a non-white-space character exists, so an all-white-space string is kept as it is.
   */
  function TrimWs(s: string): (r: string)
    ensures AllIn(s, WhiteSpace) ==> r == s
    ensures !AllIn(s, WhiteSpace) ==> exists i, j :: TrimmedAt(s, WhiteSpace, i, j) && r == s[i..j]
  {
    match FindFirstNotOf(s, WhiteSpace)
    case None =>
      // find_last_not_of on the unchanged string finds nothing either
      s
    case Some(p) =>
      var lead := s[p..];
      match FindLastNotOf(lead, WhiteSpace)
      case None => lead
      case Some(q) =>
        assert s[p + q + 1..] == lead[q + 1..];
        assert TrimmedAt(s, WhiteSpace, p, p + q + 1);
        lead[..q + 1]
  }

  /** White space around a core whose ends are not white space is exactly what is trimmed. */
  lemma TrimWsPadded(pre: string, core: string, post: string)
    requires AllIn(pre, WhiteSpace) && AllIn(post, WhiteSpace)
    requires |core| > 0 && core[0] !in WhiteSpace && core[|core| - 1] !in WhiteSpace
    ensures TrimWs(pre + core + post) == core
  {
    var s := pre + core + post;
    var i, j := |pre|, |pre| + |core|;
    assert s[..i] == pre && s[i..j] == core && s[j..] == post;
    assert TrimmedAt(s, WhiteSpace, i, j);
    assert !AllIn(s, WhiteSpace) by {
      assert s[i] !in WhiteSpace;
    }
    var i', j' :| TrimmedAt(s, WhiteSpace, i', j') && TrimWs(s) == s[i'..j'];
    TrimmedAtUnique(s, WhiteSpace, i, j, i', j');
  }

  /** Trimming twice is trimming once. */
  lemma TrimWsIdempotent(s: string)
    ensures TrimWs(TrimWs(s)) == TrimWs(s)
  {
    if !AllIn(s, WhiteSpace) {
      var r := TrimWs(s);
      var i, j :| TrimmedAt(s, WhiteSpace, i, j) && r == s[i..j];
      assert r[0] == s[i] && r[|r| - 1] == s[j - 1];
      TrimWsFixed(r);
    }
  }

  /** A string that starts and ends outside white space is its own trim. */
  lemma TrimWsFixed(r: string)
    requires |r| > 0 && r[0] !in WhiteSpace && r[|r| - 1] !in WhiteSpace
    ensures TrimWs(r) == r
  {
    assert TrimmedAt(r, WhiteSpace, 0, |r|);
    assert !AllIn(r, WhiteSpace);
    var r' := TrimWs(r);
    var i', j' :| TrimmedAt(r, WhiteSpace, i', j') && r' == r[i'..j'];
    TrimmedAtUnique(r, WhiteSpace, 0, |r|, i', j');
  }

  /** A trimmed string that is not all white space neither starts nor ends with white space. */
  lemma TrimWsEnds(s: string)
    requires !AllIn(s, WhiteSpace)
    ensures var r := TrimWs(s); |r| > 0 && r[0] !in WhiteSpace && r[|r| - 1] !in WhiteSpace
  {
  }

  /** Every character of the trimmed string comes from the input. */
  lemma TrimWsKeepsCharacters(s: string, c: char)
    requires c !in s
    ensures c !in TrimWs(s)
  {
    if !AllIn(s, WhiteSpace) {
      var r := TrimWs(s);
      var i, j :| TrimmedAt(s, WhiteSpace, i, j) && r == s[i..j];
    }
  }

  /**
   * `adjust_gpu_model`: keep the text between the first '[' and the last ']'.
   * `first`, `last` and `last - first` are size_t, `npos` standing for a missing bracket,
   * so the subtraction wraps around when a bracket is missing or the two are reversed.
   */
  function AdjustGpuModel(model: CppStr): (r: string)
    ensures exists i, j :: 0 <= i <= j <= |model| && r == model[i..j]
  {
    var first := PosOrNPos(Find(model, '['));
    var last := PosOrNPos(FindLastOf(model, ']'));
    var span := SizeSub(last, first);
    if span > 1 then
      var pos, count := SizeAdd(first, 1), SizeSub(span, 1);
      var end := if pos + count <= |model| then pos + count else |model|;
      assert Substr(model, pos, count) == model[pos..end];
      Substr(model, pos, count)
    else
      assert model == model[0..|model|];
      model
  }

  /** Both brackets, in order, with text between: exactly that text is kept. */
  lemma AdjustGpuModelBetween(model: CppStr, i: nat, j: nat)
    requires Find(model, '[') == Some(i) && FindLastOf(model, ']') == Some(j)
    requires i + 1 < j
    ensures AdjustGpuModel(model) == model[i + 1..j]
  {
    assert SizeSub(j, i) == j - i;
    assert SizeAdd(i, 1) == i + 1;
    assert SizeSub(j - i, 1) == j - i - 1;
    assert Substr(model, i + 1, j - i - 1) == model[i + 1..j];
  }

  /** "[]" with nothing between: the span is 1 and the model is kept whole. */
  lemma AdjustGpuModelAdjacent(model: CppStr, i: nat)
    requires Find(model, '[') == Some(i) && FindLastOf(model, ']') == Some(i + 1)
    ensures AdjustGpuModel(model) == model
  {
  }

  /** "]...[": `last - first` wraps around, and everything after the '[' is kept. */
  lemma AdjustGpuModelReversed(model: CppStr, i: nat, j: nat)
    requires Find(model, '[') == Some(i) && FindLastOf(model, ']') == Some(j)
    requires j < i
    ensures AdjustGpuModel(model) == model[i + 1..]
  {
  }

  /** Only ']': `first` is npos, so the text before the ']' is kept (all of it when ']' leads). */
  lemma AdjustGpuModelCloseOnly(model: CppStr, j: nat)
    requires '[' !in model && FindLastOf(model, ']') == Some(j)
    ensures AdjustGpuModel(model) == if j == 0 then model else model[..j]
  {
  }

  /** Only '[': `last` is npos, so everything after the '[' is kept. */
  lemma AdjustGpuModelOpenOnly(model: CppStr, i: nat)
    requires Find(model, '[') == Some(i) && ']' !in model
    ensures AdjustGpuModel(model) == model[i + 1..]
  {
  }

  /** No bracket at all: the model is unchanged. */
  lemma AdjustGpuModelNoBrackets(model: CppStr)
    requires '[' !in model && ']' !in model
    ensures AdjustGpuModel(model) == model
  {
  }

  /**
   * The example of the source comment: "GP104GL [Quadro P4000]" becomes "Quadro P4000".
   * The model is a parameter pinned by the requires: with the literal written into the
   * ensures, the verifier unfolds `Find` and `FindLastOf` on it character by character
   * and runs out of resources.
   */
  lemma AdjustGpuModelExample(model: CppStr)
    requires model == "GP104GL [Quadro P4000]"
    ensures AdjustGpuModel(model) == "Quadro P4000"
  {
    assert model[..8] == "GP104GL ";
    FindIs(model, '[', 8);
    FindLastOfIs(model, ']', 21);
    AdjustGpuModelBetween(model, 8, 21);
    assert model[9..21] == "Quadro P4000";
  }

  /** "[]" is kept as it is: `last - first` is 1. */
  lemma AdjustGpuModelEmptyBrackets()
    ensures AdjustGpuModel("[]") == "[]"
  {
    var model: CppStr := "[]";
    assert model[..0] == [];
    FindIs(model, '[', 0);
    FindLastOfIs(model, ']', 1);
    AdjustGpuModelAdjacent(model, 0);
  }

  /**
   * The PCI domain:bus:slot:function clean-up of the link text read from
   * /sys/class/drm/cardN/device: every '/' removed, then the leading '.'s
   * (all of the string when it holds nothing but '.').
   */
  function NormalizeDbsf(link: string): (r: string)
    ensures '/' !in r
    ensures r == [] || r[0] != '.'
    ensures var noSlash := RemoveChar(link, '/');
            var k := |noSlash| - |r|;
            0 <= k && AllIn(noSlash[..k], {'.'}) && r == noSlash[k..]
  {
    var noSlash := RemoveChar(link, '/');
    // erase(0, pos) drops the leading dots; with pos == npos it empties the string
    var k := match FindFirstNotOf(noSlash, {'.'})
             case Some(p) => p
             case None => |noSlash|;
    assert noSlash[..|noSlash|] == noSlash;
    assert forall x :: x in noSlash[k..] ==> x in noSlash;
    noSlash[k..]
  }

  /** The relative path prefix "../" repeated `n` times. */
  function UpDirs(n: nat): string
  {
    if n == 0 then [] else "../" + UpDirs(n - 1)
  }

  /** `n` dots. */
  function Dots(n: nat): (r: string)
    ensures |r| == n && AllIn(r, {'.'})
  {
    if n == 0 then [] else "." + Dots(n - 1)
  }

  /** Removal on a sequence with a known first character. */
  lemma RemoveCharCons(x: char, rest: string, c: char)
    ensures RemoveChar([x] + rest, c) == if x == c then RemoveChar(rest, c) else [x] + RemoveChar(rest, c)
  {
    assert ([x] + rest)[1..] == rest;
  }

  /** One "../" leaves two dots behind once its slash is removed. */
  lemma RemoveSlashesUpDir(rest: string)
    ensures RemoveChar("../" + rest, '/') == ".." + RemoveChar(rest, '/')
  {
    var r1 := ['/'] + rest;
    var r2 := ['.'] + r1;
    assert "../" + rest == ['.'] + r2;
    var tail := RemoveChar(rest, '/');
    assert RemoveChar(r1, '/') == tail by {
      RemoveCharCons('/', rest, '/');
    }
    assert RemoveChar(r2, '/') == ['.'] + tail by {
      RemoveCharCons('.', r1, '/');
    }
    assert RemoveChar(['.'] + r2, '/') == ['.'] + (['.'] + tail) by {
      RemoveCharCons('.', r2, '/');
    }
    assert ['.'] + (['.'] + tail) == ".." + tail;
  }

  lemma DotsPlusTwo(m: nat)
    ensures Dots(m + 2) == ".." + Dots(m)
  {
    assert Dots(m + 2) == "." + Dots(m + 1);
  }

  /** `n` times "../" leaves `2 * n` dots behind once its slashes are removed. */
  lemma {:induction false} RemoveSlashesUpDirs(n: nat)
    ensures RemoveChar(UpDirs(n), '/') == Dots(2 * n)
  {
    if n > 0 {
      RemoveSlashesUpDir(UpDirs(n - 1));
      RemoveSlashesUpDirs(n - 1);
      DotsPlusTwo(2 * (n - 1));
    }
  }

  /** After `d` dots, the first character that is not a dot is the first one of `t`. */
  lemma SkipDots(d: nat, t: string)
    requires t != [] && t[0] != '.'
    ensures FindFirstNotOf(Dots(d) + t, {'.'}) == Some(d)
    ensures (Dots(d) + t)[d..] == t
  {
    var s := Dots(d) + t;
    assert s[..d] == Dots(d);
    FindFirstNotOfIs(s, {'.'}, d);
  }

  /**
   * A device link of the form "../../../<dbsf>/" (any number of "../") is cleaned up to
   * exactly "<dbsf>", as long as the address itself has no '/' and does not start with '.'.
   */
  lemma NormalizeDbsfRelativeLink(n: nat, dbsf: string)
    requires '/' !in dbsf && dbsf != [] && dbsf[0] != '.'
    ensures NormalizeDbsf(UpDirs(n) + dbsf + "/") == dbsf
  {
    var link := UpDirs(n) + dbsf + "/";
    assert RemoveChar(link, '/') == Dots(2 * n) + dbsf by {
      assert link == UpDirs(n) + (dbsf + "/");
      RemoveCharAppend(UpDirs(n), dbsf + "/", '/');
      RemoveSlashesUpDirs(n);
      RemoveCharAppend(dbsf, "/", '/');
      RemoveCharCons('/', [], '/');
      assert ['/'] + [] == "/";
    }
    SkipDots(2 * n, dbsf);
  }

  /** The example of the source comment: "../../../0000:65:00.0/" becomes "0000:65:00.0". */
  lemma NormalizeDbsfExample()
    ensures NormalizeDbsf("../../../0000:65:00.0/") == "0000:65:00.0"
  {
    var link := "../../../0000:65:00.0/";
    var dbsf := "0000:65:00.0";
    assert UpDirs(3) == "../../../";
    assert link == UpDirs(3) + dbsf + "/";
    NormalizeDbsfRelativeLink(3, dbsf);
  }

  /** The exception `std::string::at` throws. */
  datatype CppException = OutOfRange

  /**
   * The value extraction as written: `pos = line.find(sep); if (pos != npos &&
   * line.at(pos + 1) != '\0') value = line.substr(pos + 1)`. `at(pos + 1)` throws
   * when `sep` is the last character of the line.
   */
  function ValueAfterAsWritten(line: string, sep: char): (r: Result<Option<string>, CppException>)
    ensures r.Failure? <==> |line| > 0 && line[|line| - 1] == sep && sep !in line[..|line| - 1]
  {
    match Find(line, sep)
    case None => Success(None)
    case Some(p) =>
      if p + 1 >= |line| then Failure(OutOfRange)
      else if line[p + 1] == '\0' then Success(None)
      else Success(Some(line[p + 1..]))
  }

  /** A line whose only separator is its last character makes the code above throw. */
  lemma SeparatorLastThrows(line: string, sep: char)
    requires |line| > 0 && line[|line| - 1] == sep && sep !in line[..|line| - 1]
    ensures ValueAfterAsWritten(line, sep) == Failure(OutOfRange)
  {
  }

  /** The os-release line "NAME=" throws std::out_of_range. */
  lemma EmptyNameThrows()
    ensures ValueAfterAsWritten("NAME=", '=') == Failure(OutOfRange)
    ensures ValueAfter("NAME=", '=') == None
  {
    SeparatorLastThrows("NAME=", '=');
  }

  /**
   * The value extraction as intended: the text after the first `sep`, when there is
   * some and it does not start with NUL; a line ending in `sep` has no value.
   */
  function ValueAfter(line: string, sep: char): (r: Option<string>)
    // it agrees with the code as written wherever that does not throw
    ensures ValueAfterAsWritten(line, sep).Success? ==> r == ValueAfterAsWritten(line, sep).value
    ensures match r
            case Some(v) =>
              var p := |line| - |v| - 1;
              && 0 <= p && line[p] == sep && sep !in line[..p]
              && v == line[p + 1..] && v != [] && v[0] != '\0'
            case None =>
              (match Find(line, sep)
               case None => true
               case Some(p) => p + 1 == |line| || line[p + 1] == '\0')
  {
    match Find(line, sep)
    case None => None
    case Some(p) =>
      if p + 1 < |line| && line[p + 1] != '\0' then Some(line[p + 1..]) else None
  }

  /** The text after the first separator is the value, when it is there and starts with no NUL. */
  lemma ValueAfterOf(name: string, sep: char, v: string)
    requires sep !in name && v != [] && v[0] != '\0'
    ensures ValueAfter(name + [sep] + v, sep) == Some(v)
  {
    var line := name + [sep] + v;
    assert line[..|name|] == name && line[|name|] == sep;
    FindIs(line, sep, |name|);
    assert line[|name| + 1..] == v;
  }

  /** The value of a run of decimal digits. */
  function DigitsValue(d: string): (n: nat)
    requires AllIn(d, Digits)
  {
    if d == [] then 0 else DigitsValue(d[..|d| - 1]) * 10 + (d[|d| - 1] as int - '0' as int)
  }

  const Digits: set<char> := {'0', '1', '2', '3', '4', '5', '6', '7', '8', '9'}

  /** The leading run of decimal digits of `s`. */
  function LeadingDigits(s: string): (d: string)
    ensures AllIn(d, Digits) && StartsWith(s, d)
    ensures |d| < |s| ==> s[|d|] !in Digits
  {
    match FindFirstNotOf(s, Digits)
    case Some(p) => s[..p]
    case None => s
  }

  /** What `atoi` reads: white space skipped, then an optional sign. */
  function AtoiBody(s: string): (t: string)
    ensures |t| <= |s|
  {
    match FindFirstNotOf(s, WhiteSpace)
    case Some(p) => if s[p] == '-' || s[p] == '+' then s[p + 1..] else s[p..]
    case None => []
  }

  /** True when `atoi` sees a minus sign. */
  function AtoiNegative(s: string): bool
  {
    match FindFirstNotOf(s, WhiteSpace)
    case Some(p) => s[p] == '-'
    case None => false
  }

  /**
   * `atoi`: skip white space, take an optional sign, then the leading digits;
   * no digits give 0. Overflow, which is undefined in C, is not modelled.
   */
  function Atoi(s: string): int
  {
    var v := DigitsValue(LeadingDigits(AtoiBody(s)));
    if AtoiNegative(s) then 0 - v else v
  }

  /** A digit run is worth 0 exactly when it is all '0's (or empty). */
  lemma {:induction false} DigitsValueZero(d: string)
    requires AllIn(d, Digits)
    ensures DigitsValue(d) == 0 <==> AllIn(d, {'0'})
  {
    if d != [] {
      var init := d[..|d| - 1];
      assert AllIn(init, Digits);
      DigitsValueZero(init);
      assert AllIn(d, {'0'}) <==> AllIn(init, {'0'}) && d[|d| - 1] == '0';
    }
  }

  /** `atoi` gives 0 exactly when the digits it reads are all '0's, or there are none. */
  lemma AtoiZero(s: string)
    ensures Atoi(s) == 0 <==> AllIn(LeadingDigits(AtoiBody(s)), {'0'})
  {
    DigitsValueZero(LeadingDigits(AtoiBody(s)));
  }

  /** The "physical id" value " 0" reads as processor 0, " 1" as processor 1, and " x" as 0. */
  lemma AtoiExamples()
    ensures Atoi(" 0") == 0 && Atoi(" 1") == 1 && Atoi(" x") == 0
  {
    var zero, one, junk := " 0", " 1", " x";
    FindFirstNotOfIs(zero, WhiteSpace, 1);
    FindFirstNotOfIs(one, WhiteSpace, 1);
    FindFirstNotOfIs(junk, WhiteSpace, 1);
    assert AtoiBody(zero) == zero[1..] == "0" && AtoiBody(one) == one[1..] == "1";
    assert AtoiBody(junk) == junk[1..] == "x";
    assert LeadingDigits("0") == "0" && LeadingDigits("1") == "1";
    FindFirstNotOfIs("x", Digits, 0);
    assert LeadingDigits("x") == [];
    assert DigitsValue("1") == DigitsValue([]) * 10 + 1;
  }
}

=== FILE: whip_output.dfy ===
/**
 * The helpers the WHIP output hands to libcurl: `trim_string`, the body callback that
 * accumulates the response, and the header callback that captures the `Location`
 * response header (section 10.2.2 of RFC 9110), whose field name is matched without
 * regard to case (section 5.1 of RFC 9110).
 */
module WhipOutput {
  import opened Wrappers
  import opened CppString

  /** The characters `trim_string` removes: " \n\r\t" (form feed and vertical tab stay). */
  const HttpWhiteSpace: set<char> := {' ', '\n', '\r', '\t'}

  /**
   * `trim_string`: erase up to the first character outside the set (all of the string
   * when there is none), then from just after the last such character on. On an empty
   * string `find_last_not_of` gives npos and npos + 1 wraps around to 0.
   */
  function TrimString(source: string): (r: string)
    ensures AllIn(source, HttpWhiteSpace) ==> r == []
    ensures !AllIn(source, HttpWhiteSpace) ==> exists i, j :: TrimmedAt(source, HttpWhiteSpace, i, j) && r == source[i..j]
  {
    match FindFirstNotOf(source, HttpWhiteSpace)
    case None => []
    case Some(p) =>
      var lead := source[p..];
      var cut := match FindLastNotOf(lead, HttpWhiteSpace) case Some(q) => q + 1 case None => 0;
      assert cut > 0 by {
        assert lead[0] !in HttpWhiteSpace;
      }
      assert source[p + cut..] == lead[cut..];
      assert TrimmedAt(source, HttpWhiteSpace, p, p + cut);
      lead[..cut]
  }

  /** A string that starts and ends outside the set is its own trim. */
  lemma TrimStringFixed(r: string)
    requires |r| > 0 && r[0] !in HttpWhiteSpace && r[|r| - 1] !in HttpWhiteSpace
    ensures TrimString(r) == r
  {
    assert TrimmedAt(r, HttpWhiteSpace, 0, |r|);
    assert !AllIn(r, HttpWhiteSpace);
    var r' := TrimString(r);
    var i', j' :| TrimmedAt(r, HttpWhiteSpace, i', j') && r' == r[i'..j'];
    TrimmedAtUnique(r, HttpWhiteSpace, 0, |r|, i', j');
  }

  /** Unless the input is all white space, the trimmed string neither starts nor ends with it. */
  lemma TrimStringEnds(s: string)
    requires !AllIn(s, HttpWhiteSpace)
    ensures var r := TrimString(s); |r| > 0 && r[0] !in HttpWhiteSpace && r[|r| - 1] !in HttpWhiteSpace
  {
    var r := TrimString(s);
    var i, j :| TrimmedAt(s, HttpWhiteSpace, i, j) && r == s[i..j];
    assert r[0] == s[i] && r[|r| - 1] == s[j - 1];
  }

  /** Trimming twice is trimming once. */
  lemma TrimStringIdempotent(s: string)
    ensures TrimString(TrimString(s)) == TrimString(s)
  {
    if AllIn(s, HttpWhiteSpace) {
      assert TrimString(s) == [];
      assert TrimString([]) == [];
    } else {
      TrimStringEnds(s);
      TrimStringFixed(TrimString(s));
    }
  }

  /** White space around a core whose ends are outside the set is exactly what is trimmed. */
  lemma TrimStringPadded(pre: string, core: string, post: string)
    requires AllIn(pre, HttpWhiteSpace) && AllIn(post, HttpWhiteSpace)
    requires |core| > 0 && core[0] !in HttpWhiteSpace && core[|core| - 1] !in HttpWhiteSpace
    ensures TrimString(pre + core + post) == core
  {
    var s := pre + core + post;
    var i, j := |pre|, |pre| + |core|;
    assert s[..i] == pre && s[i..j] == core && s[j..] == post;
    assert TrimmedAt(s, HttpWhiteSpace, i, j);
    assert !AllIn(s, HttpWhiteSpace) by {
      assert s[i] !in HttpWhiteSpace;
    }
    var i', j' :| TrimmedAt(s, HttpWhiteSpace, i', j') && TrimString(s) == s[i'..j'];
    TrimmedAtUnique(s, HttpWhiteSpace, i, j, i', j');
  }

  /** Form feed and vertical tab are not trimmed: "\f" and "\v" are kept as they are. */
  lemma TrimStringKeepsFormFeed()
    ensures TrimString("\U{C}") == "\U{C}" && TrimString("\U{B}") == "\U{B}"
  {
    TrimStringFixed("\U{C}");
    TrimStringFixed("\U{B}");
  }

  /** `LOCATION_HEADER_LENGTH`, the length of "location: ". */
  const LocationHeaderLength: nat := 10

  /** The field name and separator the header callback looks for. */
  const LocationPrefix: string := "location: "

  /**
   * `astrcmpi_n(data, "location: ", 10) == 0` for a header line of at least 10 bytes:
   * the first 10 characters equal "location: " up to the case of ASCII letters.
   */
  predicate IsLocationHeader(header: string)
    requires |header| >= LocationHeaderLength
  {
    ToLower(header[..LocationHeaderLength]) == LocationPrefix
  }

  /**
   * What the header callback makes of the buffer for one header line: a line shorter than
   * 10 bytes or with another field name leaves it alone; a `Location` line has its value
   * (everything after the 10-byte prefix) appended and the whole buffer trimmed.
   */
  function LocationUpdate(buffer: string, header: string): (r: string)
    ensures |header| < LocationHeaderLength ==> r == buffer
    ensures |header| >= LocationHeaderLength && !IsLocationHeader(header) ==> r == buffer
  {
    if |header| < LocationHeaderLength then buffer
    else if IsLocationHeader(header) then TrimString(buffer + header[LocationHeaderLength..])
    else buffer
  }

  /** After a `Location` line the buffer neither starts nor ends with white space. */
  lemma LocationUpdateTrimmed(buffer: string, header: string)
    requires |header| >= LocationHeaderLength && IsLocationHeader(header)
    ensures TrimString(LocationUpdate(buffer, header)) == LocationUpdate(buffer, header)
  {
    TrimStringIdempotent(buffer + header[LocationHeaderLength..]);
  }

  /**
   * A `Location` line appends its value to what the buffer already holds: with a buffer
   * that is empty or trimmed, and a value whose ends are not white space, the buffer
   * becomes the old buffer followed by the value, the line's trailing white space dropped.
   */
  lemma LocationUpdateAppends(buffer: string, name: string, v: string, tail: string)
    requires |name| == LocationHeaderLength && ToLower(name) == LocationPrefix
    requires buffer == [] || (buffer[0] !in HttpWhiteSpace && buffer[|buffer| - 1] !in HttpWhiteSpace)
    requires |v| > 0 && v[0] !in HttpWhiteSpace && v[|v| - 1] !in HttpWhiteSpace
    requires AllIn(tail, HttpWhiteSpace)
    ensures LocationUpdate(buffer, name + v + tail) == buffer + v
  {
    var header := name + v + tail;
    assert header[..LocationHeaderLength] == name;
    assert header[LocationHeaderLength..] == v + tail;
    var core := buffer + v;
    assert core[0] !in HttpWhiteSpace by {
      if buffer == [] {
        assert core[0] == v[0];
      }
    }
    assert core[|core| - 1] == v[|v| - 1];
    assert buffer + header[LocationHeaderLength..] == [] + core + tail;
    TrimStringPadded([], core, tail);
  }

  /** "LOCATION: /whip/abc123\r\n" into an empty buffer leaves "/whip/abc123". */
  lemma LocationUpdateExample()
    ensures LocationUpdate([], "LOCATION: /whip/abc123\r\n") == "/whip/abc123"
  {
    assert ToLower("LOCATION: ") == LocationPrefix;
    assert "LOCATION: /whip/abc123\r\n" == "LOCATION: " + "/whip/abc123" + "\r\n";
    LocationUpdateAppends([], "LOCATION: ", "/whip/abc123", "\r\n");
  }

  /** Two `Location` lines: the second value is appended to the first, not put in its place. */
  lemma LocationUpdateTwice(name: string, a: string, b: string, tail: string)
    requires |name| == LocationHeaderLength && ToLower(name) == LocationPrefix
    requires |a| > 0 && a[0] !in HttpWhiteSpace && a[|a| - 1] !in HttpWhiteSpace
    requires |b| > 0 && b[0] !in HttpWhiteSpace && b[|b| - 1] !in HttpWhiteSpace
    requires AllIn(tail, HttpWhiteSpace)
    ensures LocationUpdate(LocationUpdate([], name + a + tail), name + b + tail) == a + b
  {
    LocationUpdateAppends([], name, a, tail);
    assert [] + a == a;
    LocationUpdateAppends(a, name, b, tail);
  }

  /** "Location:/x", without the space, is not a `Location` line for the callback. */
  lemma NoSpaceIsNotLocation()
    ensures !IsLocationHeader("Location:/x\r\n")
  {
    assert ToLower("Location:/x\r\n"[..LocationHeaderLength])[9] == '/';
  }

  /** The `std::string` a callback appends to, owned by the caller. */
  class CurlBuffer {
    var contents: string

    constructor(initial: string)
      ensures contents == initial
    {
      contents := initial;
    }

    /**
     * `curl_writefunction`: append exactly `size * nmemb` bytes of `data` and report that
     * many as handled. libcurl passes a chunk of that many bytes.
     */
    method WriteFunction(data: string, size: SizeT, nmemb: SizeT) returns (handled: SizeT)
      requires SizeMul(size, nmemb) <= |data|
      modifies this
      ensures handled == SizeMul(size, nmemb)
      ensures contents == old(contents) + data[..handled]
    {
      var realSize := SizeMul(size, nmemb);
      contents := contents + data[..realSize];
      return realSize;
    }

    /**
     * `curl_headerfunction`: always report the whole header line as handled, so the
     * transfer is never aborted; a `Location` line updates the buffer as above.
     */
    method HeaderFunction(data: string, size: SizeT, nmemb: SizeT) returns (handled: SizeT)
      requires SizeMul(size, nmemb) <= |data|
      modifies this
      ensures handled == SizeMul(size, nmemb)
      ensures contents == LocationUpdate(old(contents), data[..handled])
    {
      var realSize := SizeMul(size, nmemb);
      if realSize < LocationHeaderLength {
        return realSize;
      }
      var header := data[..realSize];
      if IsLocationHeader(header) {
        contents := contents + header[LocationHeaderLength..];
        contents := TrimString(contents);
      }
      return realSize;
    }
  }
}

=== FILE: wrappers.dfy ===
/** Option and Result: the "not found" and "threw" outcomes of the modelled C++ calls. */
module Wrappers {

  datatype Option<+T> = None | Some(value: T)

  datatype Result<+T, +E> = Success(value: T) | Failure(error: E)
}
